=== FILE: README.md ===
# Two-party chat server: the message lifecycle, in Dafny

This project models the core of a Spring Boot chat server in which two users
exchange messages over STOMP. Each message has a lifecycle of SENT, DELIVERED
and READ. The model covers:

- the `chat_message` table, with its IDENTITY ids and its `@Version`
  optimistic lock;
- `ChatService`, which sends, edits, deletes and reads messages, marks them
  READ on room entry and fetches history;
- the in-memory presence registry `ActiveUserService` and the disconnect
  listener that feeds it;
- `ChatController`, which runs the service and publishes the results to the
  room's broker topic;
- the `/chat` page controller, which splits a room string `uidA__uidB` with
  Java's `String.split("__")`.

Everything is immutable data and pure functions:

- The table is a `Store`: a sequence of persisted rows in ascending id order,
  plus the next IDENTITY value.
- Each service or controller call maps the state before it to the state after
  it and to its answer.
- An exception is a `Failure` carrying a `ChatError`. When the service throws,
  no table comes back, which is the transaction rolling back.
- The broker is the log of (destination, payload) pairs held in the `Server`
  state.

Files:

| file | module |
|---|---|
| `wrappers.dfy` | `Wrappers`: `Option`, `Result` |
| `errors.dfy` | `Errors`: the thrown exceptions |
| `seqs.dfy` | `Seqs`: `Stream.limit`, reversal |
| `chat_message.dfy` | `Domain`: the entity and its mutators |
| `chat_message_repository.dfy` | `Repository`: the table, `save`, `saveAll`, `delete`, the derived queries |
| `sorting.dfy` | `Sorting`: `sorted(comparing(getId))` |
| `events.dfy` | `Events`: the response, deletion event and `WsEvent` payloads |
| `users.dfy` | `Users`: uid to display name |
| `chat_service.dfy` | `ChatService` |
| `active_user_service.dfy` | `ActiveUsers` |
| `stomp_event_listener.dfy` | `StompEventListener` |
| `java_split.dfy` | `JavaSplit`: `String.split("__")` |
| `page_controller.dfy` | `PageController` |
| `chat_controller.dfy` | `ChatController` |

Some behaviours of the code are easy to misread. The model keeps them as
written:

- `send` always stores SENT and never consults presence. The handler's
  comment (ChatController.java:41) says the status, SENT or READ, is decided
  on send, but nothing in `ChatService.send` reads presence
  (`ChatController.SendIgnoresPresence`).
- The broker topic of a room is `/topic/rooms/<roomId>`.
- The deletion marker `WsEvent.deleted` carries only a type and the message
  id. `WsEvent` has no room field at all; its `NON_NULL` rule only leaves
  out the unset sender.
- `fetchRecent(roomId, limit)` takes the newest 50 rows of the room, sorts
  them by ascending id and keeps the first `limit`. So it returns the OLDEST
  `limit` of the newest 50, not the `limit` most recent messages
  (`ChatService.FetchRecentMissesNewest`).
- A negative `limit` throws, because `Stream.limit` rejects it.
- The page's room label names the two users in the order the room string
  lists them, whoever is asking.
- A room string such as `a__b__` is accepted as the two uids `a` and `b`,
  because Java's `split` drops trailing empty strings.

## Model

| member | source | states |
|---|---|---|
| Domain.ChangeContent | src/main/java/likelion13th/chat/domain/ChatMessage.java:45 | the copy has the new content and agrees with the original on every other field, the id and version included |
| Domain.ChangeStatus | src/main/java/likelion13th/chat/domain/ChatMessage.java:46 | the copy has the new status and agrees with the original on every other field |
| Domain.ChangeContentRoundTrip | src/main/java/likelion13th/chat/domain/ChatMessage.java:15-46 | restoring the old content gives back the original entity; a change is the identity exactly when the content is the same |
| Domain.ChangeStatusRoundTrip | src/main/java/likelion13th/chat/domain/ChatMessage.java:15-46 | restoring the old status gives back the original entity; a change is the identity exactly when the status is the same |
| Repository.Empty | src/main/java/likelion13th/chat/domain/ChatMessage.java:18-19 | the table the database starts with has no rows and hands out IDENTITY id 1 first, and it satisfies the table invariant |
| Repository.FindById | src/main/java/likelion13th/chat/service/ChatService.java:50-51 | a row comes back exactly when the table has that id, and it is the row with that id |
| Repository.InRoom | src/main/java/likelion13th/chat/repository/ChatMessageRepository.java:9 | a row is selected exactly when it is in the table and in the room; ascending id order is kept |
| Repository.FindByRoomId | src/main/java/likelion13th/chat/repository/ChatMessageRepository.java:9 | exactly the room's rows, in ascending id order |
| Repository.NewestFirst | src/main/java/likelion13th/chat/repository/ChatMessageRepository.java:8 | the first `k` of the reversed rows are drawn from the rows, strictly descending by id, and every row left out has a smaller id than every row taken |
| Repository.FindTop50ByRoomIdOrderByIdDesc | src/main/java/likelion13th/chat/repository/ChatMessageRepository.java:8 | only rows of the room, strictly descending by id, min(room size, 50) of them, and no row of the room newer than a returned one is left out |
| Repository.Save | src/main/java/likelion13th/chat/domain/ChatMessage.java:18-42 | an entity without an id is appended with the next IDENTITY id, version 0 and both timestamps set. An entity with an id succeeds exactly when its row exists with the same version, otherwise it is an optimistic-lock conflict. A merge replaces that row alone, keeps an identical copy as it is, and otherwise bumps the version and `updatedAt`. The table stays ordered |
| Repository.SaveAll | src/main/java/likelion13th/chat/service/ChatService.java:97 | on success the table is valid and one stored entity comes back per input, in order. Each has an id. An inserted one is its input with that id, version 0 and both timestamps set; a merged one differs from its input only in its version and update time. A batch of inserts always succeeds, and the only failure is a conflict. Ids are consumed only by inserts |
| Repository.Delete | src/main/java/likelion13th/chat/service/ChatService.java:78 | it fails exactly when the row exists with another version. On success the id is gone, every other row stays, and nothing else is added |
| Seqs.Take | src/main/java/likelion13th/chat/service/ChatService.java:109 | `limit(n)` keeps exactly the first min(n, length) elements |
| Sorting.SortById | src/main/java/likelion13th/chat/service/ChatService.java:108 | the result is ordered by id and is a permutation (same multiset) of the input |
| Sorting.SortDescendingIsReverse | src/main/java/likelion13th/chat/service/ChatService.java:107-108 | sorting a strictly id-descending page by id is reversing it |
| Events.From | src/main/java/likelion13th/chat/dto/event/ChatMessageResponse.java:26-36 | the seven copied fields equal the entity's, and the sender name is unset |
| Events.FromLosesOnlyVersion | src/main/java/likelion13th/chat/dto/event/ChatMessageResponse.java:16-36 | the entity is recovered from its response plus its version, and two entities give the same response exactly when they differ at most in the version |
| Events.WithSenderName | src/main/java/likelion13th/chat/dto/event/ChatMessageResponse.java:38-41 | the name is set and every other field is as before |
| Events.Deleted | src/main/java/likelion13th/chat/dto/event/WsEvent.java:20-22 | type "deleted", the given message id, no sender |
| Events.DeletedMarkerKeys | src/main/java/likelion13th/chat/dto/event/WsEvent.java:10-22 | the JSON of a deletion marker has exactly the keys `type` and `messageId`, with no room id |
| Users.FindDisplayName | src/main/java/likelion13th/chat/service/ChatService.java:29-31 | a name is found exactly when the uid is known, and it is that user's name |
| ChatService.ToResponseWithName | src/main/java/likelion13th/chat/service/ChatService.java:28-33 | the snapshot agrees with the message on id, room, sender, content, status and both timestamps, and its sender name is the directory's name, or "Unknown" for an unknown uid |
| ChatService.Responses | src/main/java/likelion13th/chat/service/ChatService.java:99-101 | one snapshot per message, position for position |
| ChatService.Send | src/main/java/likelion13th/chat/service/ChatService.java:36-45 | it always succeeds and appends exactly one row. The row's id is not in the table and is above every id in it. The row has the command's room, sender and content and status SENT; the answer is that row's snapshot |
| ChatService.CheckOwnUnread | src/main/java/likelion13th/chat/service/ChatService.java:50-56 | a missing id gives not-found; another sender gives not-sender; a READ message gives already-read, in that order; otherwise the row comes back |
| ChatService.Edit | src/main/java/likelion13th/chat/service/ChatService.java:47-65 | the guards of `CheckOwnUnread`, so editing a READ message fails for any content. On success only the edited row changes: the new content, status SENT, and the same id, room, sender and creation time. The answer is the stored row's snapshot |
| ChatService.Delete | src/main/java/likelion13th/chat/service/ChatService.java:67-84 | the same guards. On success that id is gone, every other row stays, and the event names the id and the room of the removed row |
| ChatService.OthersUnread | src/main/java/likelion13th/chat/service/ChatService.java:92-93 | a message passes the two filters exactly when it is from someone else and SENT or DELIVERED |
| ChatService.MarkAllRead | src/main/java/likelion13th/chat/service/ChatService.java:94 | one copy per message, position for position, each READ and otherwise equal to its original |
| ChatService.Pending | src/main/java/likelion13th/chat/service/ChatService.java:91-93 | a message is pending exactly when it is in the table, in the room, from someone else and SENT or DELIVERED |
| ChatService.PendingIsTheQuery | src/main/java/likelion13th/chat/service/ChatService.java:91-93 | the room query followed by the two stream filters selects exactly the pending messages, in order |
| ChatService.ReadAll | src/main/java/likelion13th/chat/service/ChatService.java:94-97 | each pending row becomes its READ, version-bumped copy, and every other row is unchanged |
| ChatService.SaveAllMarksRead | src/main/java/likelion13th/chat/service/ChatService.java:94-97 | saving the READ copies of the pending rows one by one succeeds, leaves the table of `ReadAll`, and returns the stored copies in order |
| ChatService.Enter | src/main/java/likelion13th/chat/service/ChatService.java:86-102 | it always succeeds. No message of the room from someone else is left SENT or DELIVERED. A row changes exactly when it was pending, and then only in its status, version and update time. The answer has one READ snapshot of the room per changed row, none from the entering user |
| ChatService.ReadAllIsIdempotent | src/main/java/likelion13th/chat/service/ChatService.java:91-97 | after marking, no row is pending, and marking again at any later time changes no row |
| ChatService.EnterIsIdempotent | src/main/java/likelion13th/chat/service/ChatService.java:86-102 | a second `enter` right after the first leaves the table as it is and answers with an empty list |
| ChatService.RecentMessages | src/main/java/likelion13th/chat/service/ChatService.java:106-109 | rows of the room in strictly ascending id order, at most `limit`, at most 50 and at most the room's size; they are the first `limit` rows of the room's last-50 window |
| ChatService.RecentIsWindow | src/main/java/likelion13th/chat/service/ChatService.java:107-109 | sorting the newest-first page and cutting it to `limit` is cutting the ascending window of the room's last rows |
| ChatService.FetchRecent | src/main/java/likelion13th/chat/service/ChatService.java:104-112 | it fails exactly for a negative limit. Otherwise the answer is the snapshots of `RecentMessages`: all from the room, with strictly increasing ids, and no more than min(limit, 50, room size) of them |
| ChatService.FetchRecentMissesNewest | src/main/java/likelion13th/chat/service/ChatService.java:107-109 | when `limit` is below both the room size and 50, the room's newest message is not in the answer |
| ActiveUsers.GetUsersInRoom | src/main/java/likelion13th/chat/service/ActiveUserService.java:39-41 | the room's set, or the empty set for a room without an entry |
| ActiveUsers.UserJoined | src/main/java/likelion13th/chat/service/ActiveUserService.java:21-23 | the room gains an entry if it had none, the user is added, and every other room is unchanged |
| ActiveUsers.UserLeft | src/main/java/likelion13th/chat/service/ActiveUserService.java:29-33 | the user is removed from the room's set and every other room is unchanged; a room without an entry does not get one |
| ActiveUsers.JoinLeavePresence | src/main/java/likelion13th/chat/service/ActiveUserService.java:21-41 | after joining the user is present and after leaving absent; other users of the room keep their presence either way |
| ActiveUsers.JoinLeaveIdempotent | src/main/java/likelion13th/chat/service/ActiveUserService.java:21-33 | joining twice is joining once; leaving twice is leaving once |
| StompEventListener.HandleDisconnect | src/main/java/likelion13th/chat/config/StompEventListener.java:18-39 | with an attribute map holding both a room id and a user uid, that user is no longer in that room and every other room is unchanged; a missing map or key changes nothing |
| JavaSplit.FirstMatch | src/main/java/likelion13th/chat/controller/PageController.java:40 | the leftmost occurrence of `__`; there is none exactly when the string contains no separator |
| JavaSplit.Pieces | src/main/java/likelion13th/chat/controller/PageController.java:40 | at least one piece, no piece contains the separator, and every piece but the last is clean (no separator and no trailing `_`). Together with `JoinPieces`, this pins the cuts to the leftmost matches |
| JavaSplit.JoinPieces | src/main/java/likelion13th/chat/controller/PageController.java:40 | joining the pieces with `__` gives back the input |
| JavaSplit.DropTrailingEmpty | src/main/java/likelion13th/chat/controller/PageController.java:40 | what is kept is a prefix that is empty or ends in a non-empty string, and everything dropped is empty |
| JavaSplit.Split | src/main/java/likelion13th/chat/controller/PageController.java:40 | a string without a separator comes back whole. Otherwise the result is a prefix of the pieces, ending in a non-empty piece or empty, and only empty pieces are dropped |
| JavaSplit.SplitTwo | src/main/java/likelion13th/chat/controller/PageController.java:40-41 | two clean uids joined by `__` split back into exactly those two |
| JavaSplit.SplitEmpty | src/main/java/likelion13th/chat/controller/PageController.java:40 | an empty room string splits into one empty piece, not into nothing, so `chat` rejects it as a malformed room |
| JavaSplit.SplitTwoTrailing | src/main/java/likelion13th/chat/controller/PageController.java:40-41 | a trailing `__` is dropped, so `a__b__` still splits into `a` and `b` |
| JavaSplit.SplitOnlySeparators | src/main/java/likelion13th/chat/controller/PageController.java:40-41 | `____` splits into no parts at all |
| JavaSplit.SplitDoubledSeparator | src/main/java/likelion13th/chat/controller/PageController.java:40-41 | `a____b` splits into three parts, the middle one empty |
| PageController.RoomLabel | src/main/java/likelion13th/chat/controller/PageController.java:49 | `room: `, then the first name, then ` ↔ `, then the second name, and nothing else |
| PageController.Chat | src/main/java/likelion13th/chat/controller/PageController.java:29-57 | an unknown requester is rejected first, then a room that does not split into two parts, then an unknown first uid, then an unknown second uid, each rejected with that uid. It succeeds exactly when all three uids are known and the room has two parts. The page carries the requester's uid and name, the room as given, and the label of the two users' names in room order |
| PageController.ChatOfWellFormedRoom | src/main/java/likelion13th/chat/controller/PageController.java:38-49 | a room of two known clean uids, with or without a trailing `__`, gives the page for any known requester, labelled in room order |
| ChatController.Topic | src/main/java/likelion13th/chat/controller/ChatController.java:48 | `/topic/rooms/` followed by the room id and nothing else |
| ChatController.TopicsAreDistinct | src/main/java/likelion13th/chat/controller/ChatController.java:48 | two rooms share a topic exactly when they are the same room |
| ChatController.History | src/main/java/likelion13th/chat/controller/ChatController.java:30-36 | `fetchRecent` with the limit defaulting to 50, failing exactly for a negative limit; without a limit the answer has min(room size, 50) entries |
| ChatController.Send | src/main/java/likelion13th/chat/controller/ChatController.java:45-49 | exactly one publication is appended to `/topic/rooms/<room>`: the SENT snapshot of the new message with the next id and the command's content. Presence and users are unchanged |
| ChatController.Edit | src/main/java/likelion13th/chat/controller/ChatController.java:57-61 | it fails exactly when the service does, and then nothing changes and nothing is published. Otherwise presence and the user directory are unchanged, the table is the service's result, and the one publication is the edited snapshot, sent to the topic of the edited message's room |
| ChatController.Delete | src/main/java/likelion13th/chat/controller/ChatController.java:70-74 | it fails exactly when the service does, and then nothing changes and nothing is published. Otherwise presence and the user directory are unchanged, the table is the service's result, and the one publication is the deletion marker for the id, sent to the topic of the deleted message's room |
| ChatController.PublishEach | src/main/java/likelion13th/chat/controller/ChatController.java:93-95 | one publication per snapshot, in order, each to its room's topic |
| ChatController.RememberEntry | src/main/java/likelion13th/chat/controller/ChatController.java:86-87 | the session then maps `roomId` and `userUid` to the command's values, every other attribute is kept, and no other key is added |
| ChatController.Enter | src/main/java/likelion13th/chat/controller/ChatController.java:83-96 | a session without attributes fails before anything changes. Otherwise the session remembers room and user, and the user is present in the room. The user directory is unchanged. The table is the service's `enter` result. One READ snapshot per changed message is published to `/topic/rooms/<room>`, in order, after the earlier log |
| ChatController.Disconnect | src/main/java/likelion13th/chat/config/StompEventListener.java:18-39 | only presence changes, as the disconnect listener says; the table and the publication log are untouched |
| ChatController.SendIgnoresPresence | src/main/java/likelion13th/chat/controller/ChatController.java:45-49 | `send` stores and publishes the same thing whatever the presence registry holds |
| ChatController.EnterThenDisconnect | src/main/java/likelion13th/chat/controller/ChatController.java:83-96 | after entering and then disconnecting the same session, the user is absent from the room, and the disconnect published nothing |
| ChatController.EnterTwicePublishesOnce | src/main/java/likelion13th/chat/controller/ChatController.java:83-96 | a second `enter` right after the first publishes nothing and leaves the table as it is |

## Left out

- I/O and framework machinery are not modelled: the STOMP transport,
  `SimpMessagingTemplate`, Thymeleaf rendering, the HTTP mapping, bean wiring
  and the `@Transactional` proxy. A transaction is modelled as "a failure
  returns no new table".
- Concurrency is not modelled: the concurrent presence map, interleaved
  commands, and conflicts raised by a concurrent writer between a read and a
  save. Every call runs alone against one state. The version check is
  modelled anyway, so a stale entity handed to `Repository.Save` or
  `Repository.Delete` is still a conflict.
- Repository.FindByRoomId: the derived query has no ORDER BY. The model fixes
  the order to ascending id, which is the table's insertion order.
- Repository.Save: Spring Data decides "new" from the `@Version` attribute;
  the model uses the id instead. The two agree for every entity the service
  saves, since ids and versions are null or set together.
- Repository.Save: the timestamps are an opaque `now` passed in. Hibernate
  fills them at flush time, and the model orders nothing by them.
  The model stamps `updatedAt` on the entity that `save` returns. The code
  builds the answers of `edit` and `enter` before the commit flush, so they
  would carry the row's previous `updatedAt`. Timestamp values in answers are
  outside what this model promises.
- The `@Valid` command checks are not modelled: non-blank fields and content
  length. The command DTO classes are not part of this model, so commands
  are taken as given.
- Repository.SaveAll: the contract gives each returned entity's stored form (inserted or merged), but not the whole table after an arbitrary batch. The table is pinned down for the one batch the code saves, the READ copies of `enter`, by `ChatService.SaveAllMarksRead`.
- Domain.ChangeContent, Domain.ChangeStatus: the Java methods mutate the entity in place. The model returns a copy, which is also what `toBuilder()` gives the service.
- ActiveUsers.GetUsersInRoom: the Java method returns the live concurrent set, or a fresh empty set, so a caller sees later joins and leaves through it. The model returns the set's value at the time of the call.
- Events.WithSenderName: the Java method mutates and returns the same object.
  The model returns a copy, since nothing else holds the object.
- `PageController.index`, `WebSocketConfig`, `DataInitializer`, the `User` and
  `ChatLog` entities and `UserRepository` are not modelled. The users
  repository is reduced to a map from uid to display name.
- ChatController.History: a `limit` that is not an integer fails request
  binding before the handler runs; that path is not modelled.

=== FILE: active_user_service.dfy ===
/** `ActiveUserService`: which users are connected to which room. */
module ActiveUsers {

  /** Room id to the uids present in it. A room gets an entry on its first
      join; entries are never removed, they only shrink. */
  type Registry = map<string, set<string>>

  /** `getUsersInRoom`: the room's set, or the empty set for a room with no
      entry. Reading does not create an entry. */
  function GetUsersInRoom(p: Registry, roomId: string): (users: set<string>)
    ensures roomId in p ==> users == p[roomId]
    ensures roomId !in p ==> users == {}
  {
    if roomId in p then p[roomId] else {}
  }

  /** `userJoined`: adds the user to the room, creating the room's entry if
      needed; every other user and room is left alone. */
  function UserJoined(p: Registry, roomId: string, userUid: string): (q: Registry)
    ensures q.Keys == p.Keys + {roomId}
    ensures GetUsersInRoom(q, roomId) == GetUsersInRoom(p, roomId) + {userUid}
    ensures forall r :: r in p && r != roomId ==> q[r] == p[r]
  {
    p[roomId := GetUsersInRoom(p, roomId) + {userUid}]
  }

  /** `userLeft`: removes the user from the room if the room has an entry;
      a room without an entry stays without one. */
  function UserLeft(p: Registry, roomId: string, userUid: string): (q: Registry)
    ensures q.Keys == p.Keys
    ensures GetUsersInRoom(q, roomId) == GetUsersInRoom(p, roomId) - {userUid}
    ensures forall r :: r in p && r != roomId ==> q[r] == p[r]
    ensures roomId !in p ==> q == p
  {
    if roomId in p then p[roomId := p[roomId] - {userUid}] else p
  }

  /** Joining makes the user present; leaving makes them absent; other
      users of the room keep their presence either way. */
  lemma JoinLeavePresence(p: Registry, roomId: string, userUid: string, other: string)
    requires other != userUid
    ensures userUid in GetUsersInRoom(UserJoined(p, roomId, userUid), roomId)
    ensures userUid !in GetUsersInRoom(UserLeft(p, roomId, userUid), roomId)
    ensures userUid !in GetUsersInRoom(UserLeft(UserJoined(p, roomId, userUid), roomId, userUid), roomId)
    ensures other in GetUsersInRoom(UserJoined(p, roomId, userUid), roomId) <==> other in GetUsersInRoom(p, roomId)
    ensures other in GetUsersInRoom(UserLeft(p, roomId, userUid), roomId) <==> other in GetUsersInRoom(p, roomId)
  {
  }

  /** Joining twice is joining once; leaving twice is leaving once. */
  lemma JoinLeaveIdempotent(p: Registry, roomId: string, userUid: string)
    ensures UserJoined(UserJoined(p, roomId, userUid), roomId, userUid) == UserJoined(p, roomId, userUid)
    ensures UserLeft(UserLeft(p, roomId, userUid), roomId, userUid) == UserLeft(p, roomId, userUid)
  {
    if roomId in p {
      var q := UserLeft(p, roomId, userUid);
      assert q[roomId] - {userUid} == q[roomId];
      assert q[roomId := q[roomId] - {userUid}] == q;
    }
  }
}

=== FILE: chat_controller.dfy ===
/** `ChatController`: the STOMP and REST entry points. Each handler runs the
    service and then publishes its result to the room's topic; the broker
    is an append-only log of (destination, payload) pairs. */
module ChatController {
  import opened Wrappers
  import opened Errors
  import opened Domain
  import opened Repository
  import opened Events
  import opened Users
  import opened ActiveUsers
  import opened StompEventListener
  import ChatService

  datatype Payload = MessagePayload(response: ChatMessageResponse) | EventPayload(event: WsEvent)

  /** One `convertAndSend(destination, payload)`. */
  datatype Publication = Publication(destination: string, payload: Payload)

  /** Everything the handlers read or write: the message table, the presence
      registry, the user directory and what has been published so far. */
  datatype Server = Server(store: Store, presence: Registry, users: Directory, published: seq<Publication>)

  /** The result of a send, edit or delete: the server afterwards, and the
      exception that escaped, if any. */
  datatype Outcome = Outcome(server: Server, error: Option<ChatError>)

  /** The result of `enter`, which also writes the session's attributes. */
  datatype EnterOutcome = EnterOutcome(server: Server, session: Option<SessionAttributes>, error: Option<ChatError>)

  const TopicPrefix := "/topic/rooms/"

  /** `history`'s `limit` when the request has none. */
  const DefaultLimit := 50

  /** The destination every event of a room goes to. */
  function Topic(roomId: string): (t: string)
    ensures |t| == |TopicPrefix| + |roomId|
    ensures t[..|TopicPrefix|] == TopicPrefix && t[|TopicPrefix|..] == roomId
  {
    TopicPrefix + roomId
  }

  /** Distinct rooms have distinct topics, so no room hears another's
      events. */
  lemma TopicsAreDistinct(a: string, b: string)
    ensures Topic(a) == Topic(b) <==> a == b
  {
    if Topic(a) == Topic(b) {
      assert a == Topic(a)[|TopicPrefix|..];
    }
  }

  /** `history`: `fetchRecent` with the limit defaulting to 50; it reads the
      table and publishes nothing. */
  function History(srv: Server, roomId: string, limit: Option<int>): (r: Result<seq<ChatMessageResponse>, ChatError>)
    requires Valid(srv.store)
    ensures r == ChatService.FetchRecent(srv.store, srv.users, roomId, limit.GetOr(DefaultLimit))
    ensures r.Success? <==> limit.None? || limit.value >= 0
    ensures limit.None? ==> |r.value| == ChatService.WindowSize(|FindByRoomId(srv.store, roomId)|)
  {
    ChatService.FetchRecent(srv.store, srv.users, roomId, limit.GetOr(DefaultLimit))
  }

  /** `send`: stores the message and publishes its snapshot, once, to the
      room's topic. Presence is neither read nor written. */
  function Send(srv: Server, cmd: ChatService.SendMessageCommand, now: Instant): (r: Outcome)
    requires Valid(srv.store)
    ensures r.error.None? && Valid(r.server.store)
    ensures r.server.presence == srv.presence && r.server.users == srv.users
    ensures r.server.store == ChatService.Send(srv.store, srv.users, cmd, now).value.0
    ensures |r.server.published| == |srv.published| + 1
    ensures r.server.published[..|srv.published|] == srv.published
    ensures var last := r.server.published[|srv.published|];
      && last.destination == Topic(cmd.roomId)
      && last.payload == MessagePayload(ChatService.Send(srv.store, srv.users, cmd, now).value.1)
      && last.payload.response.status == SENT
      && last.payload.response.content == cmd.content
      && last.payload.response.id == Some(srv.store.nextId)
  {
    match ChatService.Send(srv.store, srv.users, cmd, now)
    case Failure(e) => Outcome(srv, Some(e))
    case Success((store', res)) =>
      var pub := Publication(Topic(res.roomId), MessagePayload(res));
      assert (srv.published + [pub])[..|srv.published|] == srv.published;
      Outcome(srv.(store := store', published := srv.published + [pub]), None)
  }

  /** `edit`: on success publishes the updated snapshot, once, to the topic
      of the message's room; when the service throws, nothing changes and
      nothing is published. */
  function Edit(srv: Server, cmd: ChatService.EditMessageCommand, now: Instant): (r: Outcome)
    requires Valid(srv.store)
    ensures Valid(r.server.store)
    ensures r.error.Some? <==> ChatService.Edit(srv.store, srv.users, cmd, now).Failure?
    ensures r.error.Some? ==> r.server == srv && r.error.value == ChatService.Edit(srv.store, srv.users, cmd, now).error
    ensures r.error.None? ==>
      && r.server.presence == srv.presence
      && r.server.users == srv.users
      && r.server.store == ChatService.Edit(srv.store, srv.users, cmd, now).value.0
      && r.server.published == srv.published + [Publication(
           Topic(ChatService.Edit(srv.store, srv.users, cmd, now).value.1.roomId),
           MessagePayload(ChatService.Edit(srv.store, srv.users, cmd, now).value.1))]
    ensures forall i :: 0 <= i < |srv.store.rows| && srv.store.rows[i].id == Some(cmd.messageId) && r.error.None? ==>
      r.server.published[|srv.published|].destination == Topic(srv.store.rows[i].roomId)
  {
    match ChatService.Edit(srv.store, srv.users, cmd, now)
    case Failure(e) => Outcome(srv, Some(e))
    case Success((store', res)) =>
      var pub := Publication(Topic(res.roomId), MessagePayload(res));
      Outcome(srv.(store := store', published := srv.published + [pub]), None)
  }

  /** `delete`: on success publishes one deletion marker carrying only the
      message id, to the topic of the deleted message's room; when the
      service throws, nothing changes and nothing is published. */
  function Delete(srv: Server, cmd: ChatService.DeleteMessageCommand): (r: Outcome)
    requires Valid(srv.store)
    ensures Valid(r.server.store)
    ensures r.error.Some? <==> ChatService.Delete(srv.store, cmd).Failure?
    ensures r.error.Some? ==> r.server == srv && r.error.value == ChatService.Delete(srv.store, cmd).error
    ensures r.error.None? ==>
      && r.server.presence == srv.presence
      && r.server.users == srv.users
      && r.server.store == ChatService.Delete(srv.store, cmd).value.0
      && r.server.published == srv.published + [Publication(
           Topic(ChatService.Delete(srv.store, cmd).value.1.roomId),
           EventPayload(Deleted(Some(cmd.messageId))))]
    ensures forall i :: 0 <= i < |srv.store.rows| && srv.store.rows[i].id == Some(cmd.messageId) && r.error.None? ==>
      r.server.published[|srv.published|].destination == Topic(srv.store.rows[i].roomId)
  {
    match ChatService.Delete(srv.store, cmd)
    case Failure(e) => Outcome(srv, Some(e))
    case Success((store', ev)) =>
      var pub := Publication(Topic(ev.roomId), EventPayload(Deleted(ev.messageId)));
      Outcome(srv.(store := store', published := srv.published + [pub]), None)
  }

  /** One publication per response, each to its own room's topic, in order. */
  function PublishEach(responses: seq<ChatMessageResponse>): (r: seq<Publication>)
    ensures |r| == |responses|
    ensures forall k :: 0 <= k < |r| ==>
      r[k] == Publication(Topic(responses[k].roomId), MessagePayload(responses[k]))
  {
    if |responses| == 0 then []
    else [Publication(Topic(responses[0].roomId), MessagePayload(responses[0]))] + PublishEach(responses[1..])
  }

  /** The session's attribute map after `enter` stored the room and user. */
  function RememberEntry(attrs: SessionAttributes, cmd: ChatService.EnterRoomCommand): (a: SessionAttributes)
    ensures Get(a, RoomIdKey) == Some(cmd.roomId) && Get(a, UserUidKey) == Some(cmd.userUid)
    ensures a.Keys == attrs.Keys + {RoomIdKey, UserUidKey}
    ensures forall k :: k in attrs && k != RoomIdKey && k != UserUidKey ==> k in a && a[k] == attrs[k]
  {
    attrs[RoomIdKey := cmd.roomId][UserUidKey := cmd.userUid]
  }

  /** `enter`: records room and user in the session, marks the user
      present, runs the service's `enter` and publishes one READ snapshot
      per message it changed, in its order, all to the room's topic. A
      session without an attribute map fails before anything happens. */
  function Enter(srv: Server, session: Option<SessionAttributes>, cmd: ChatService.EnterRoomCommand, now: Instant)
    : (r: EnterOutcome)
    requires Valid(srv.store)
    ensures Valid(r.server.store)
    ensures session.None? ==> r == EnterOutcome(srv, None, Some(MissingSessionAttributes))
    ensures session.Some? ==>
      && r.error.None?
      && r.session == Some(RememberEntry(session.value, cmd))
      && r.server.presence == UserJoined(srv.presence, cmd.roomId, cmd.userUid)
      && cmd.userUid in GetUsersInRoom(r.server.presence, cmd.roomId)
      && r.server.users == srv.users
      && r.server.store == ChatService.Enter(srv.store, srv.users, cmd, now).value.0
      && |r.server.published| == |srv.published| + |ChatService.Pending(srv.store.rows, cmd.roomId, cmd.userUid)|
      && r.server.published[..|srv.published|] == srv.published
      && (forall k :: |srv.published| <= k < |r.server.published| ==>
            && r.server.published[k].destination == Topic(cmd.roomId)
            && r.server.published[k].payload.MessagePayload?
            && r.server.published[k].payload.response.status == READ)
      && r.server.published[|srv.published|..] == PublishEach(ChatService.Enter(srv.store, srv.users, cmd, now).value.1)
  {
    match session
    case None => EnterOutcome(srv, None, Some(MissingSessionAttributes))
    case Some(attrs) =>
      var attrs' := RememberEntry(attrs, cmd);
      var presence' := UserJoined(srv.presence, cmd.roomId, cmd.userUid);
      match ChatService.Enter(srv.store, srv.users, cmd, now)
      case Failure(e) => EnterOutcome(srv.(presence := presence'), Some(attrs'), Some(e))
      case Success((store', changed)) =>
        var pubs := PublishEach(changed);
        var published' := srv.published + pubs;
        assert published'[..|srv.published|] == srv.published;
        assert published'[|srv.published|..] == pubs;
        EnterOutcome(srv.(store := store', presence := presence', published := published'), Some(attrs'), None)
  }

  /** A disconnect: the session's user leaves the session's room. The table
      and the published log are untouched. */
  function Disconnect(srv: Server, session: Option<SessionAttributes>): (r: Server)
    ensures r.store == srv.store && r.published == srv.published && r.users == srv.users
    ensures r.presence == HandleDisconnect(srv.presence, session)
  {
    srv.(presence := HandleDisconnect(srv.presence, session))
  }

  /** Whatever the presence registry holds, `send` stores and publishes the
      same thing: the message status does not depend on who is present. */
  lemma SendIgnoresPresence(srv: Server, other: Registry, cmd: ChatService.SendMessageCommand, now: Instant)
    requires Valid(srv.store)
    ensures Send(srv.(presence := other), cmd, now).server == Send(srv, cmd, now).server.(presence := other)
  {
  }

  /** Entering and then disconnecting the same session leaves the user
      absent from the room, and the disconnect publishes nothing. */
  lemma EnterThenDisconnect(srv: Server, attrs: SessionAttributes, cmd: ChatService.EnterRoomCommand, now: Instant)
    requires Valid(srv.store)
    ensures var o := Enter(srv, Some(attrs), cmd, now);
      var after := Disconnect(o.server, o.session);
      && cmd.userUid !in GetUsersInRoom(after.presence, cmd.roomId)
      && after.published == o.server.published
  {
  }

  /** Entering twice in a row publishes nothing the second time. */
  lemma EnterTwicePublishesOnce(srv: Server, attrs: SessionAttributes, cmd: ChatService.EnterRoomCommand, now: Instant, later: Instant)
    requires Valid(srv.store)
    ensures var first := Enter(srv, Some(attrs), cmd, now);
      var second := Enter(first.server, first.session, cmd, later);
      second.server.published == first.server.published && second.server.store == first.server.store
  {
    ChatService.EnterIsIdempotent(srv.store, srv.users, cmd, now, later);
  }
}

=== FILE: chat_message.dfy ===
/** The `chat_message` entity: one row of the message table. */
module Domain {
  import opened Wrappers

  /** A timestamp written by the persistence layer. It is opaque: nothing in
      the model compares or orders timestamps. */
  type Instant = int

  datatype MessageStatus = SENT | DELIVERED | READ

  /** A chat message. `id` and `version` are null (`None`) until the row is
      first persisted; the timestamps are null until the persistence layer
      fills them in. The four NOT NULL columns are non-null by construction. */
  datatype ChatMessage = ChatMessage(
    id: Option<int>,
    roomId: string,
    senderUid: string,
    content: string,
    status: MessageStatus,
    createdAt: Option<Instant>,
    updatedAt: Option<Instant>,
    version: Option<int>)

  /** A message that has been written to the store at least once. */
  predicate Persisted(m: ChatMessage) {
    m.id.Some? && m.version.Some?
  }

  /** `ChatMessage.builder()...build()` with the four business fields set:
      every generated field is still null. */
  function NewMessage(roomId: string, senderUid: string, content: string, status: MessageStatus): ChatMessage {
    ChatMessage(None, roomId, senderUid, content, status, None, None, None)
  }

  /** `changeContent`, and equally `toBuilder().content(c).build()`: a copy
      that differs from `m` in the content alone. */
  function ChangeContent(m: ChatMessage, newContent: string): (r: ChatMessage)
    ensures r.content == newContent
    ensures r.(content := m.content) == m
    ensures r.id == m.id && r.version == m.version
  {
    m.(content := newContent)
  }

  /** `changeStatus`, and equally `toBuilder().status(s).build()`: a copy
      that differs from `m` in the status alone. */
  function ChangeStatus(m: ChatMessage, newStatus: MessageStatus): (r: ChatMessage)
    ensures r.status == newStatus
    ensures r.(status := m.status) == m
    ensures r.id == m.id && r.version == m.version
  {
    m.(status := newStatus)
  }

  /** Overriding a field and then restoring it is the identity: the copy
      keeps every field it was not asked to change. */
  lemma ChangeContentRoundTrip(m: ChatMessage, c: string)
    ensures ChangeContent(ChangeContent(m, c), m.content) == m
    ensures ChangeContent(m, c) == m <==> c == m.content
  {
  }

  lemma ChangeStatusRoundTrip(m: ChatMessage, s: MessageStatus)
    ensures ChangeStatus(ChangeStatus(m, s), m.status) == m
    ensures ChangeStatus(m, s) == m <==> s == m.status
  {
  }
}

=== FILE: chat_message_repository.dfy ===
/** `ChatMessageRepository`: the message table behind the JPA interface.

    The table is a sequence of persisted rows in ascending id order plus the
    next value of the IDENTITY column. Inserting appends a row with a fresh,
    larger id, so the order is an invariant (`Valid`). A write of an existing
    row is a compare-and-swap on the `@Version` counter. */
module Repository {
  import opened Wrappers
  import opened Errors
  import opened Domain
  import opened Seqs

  /** The derived query's page size in `findTop50ByRoomIdOrderByIdDesc`. */
  const TopN: nat := 50

  datatype Store = Store(rows: seq<ChatMessage>, nextId: int)

  /** The table as the database starts it: no rows, first id 1. */
  function Empty(): (s: Store)
    ensures Valid(s) && |s.rows| == 0 && s.nextId == 1
  {
    Store([], 1)
  }

  /** Every row is persisted, and ids strictly increase along `xs`. */
  ghost predicate Ascending(xs: seq<ChatMessage>) {
    && (forall i :: 0 <= i < |xs| ==> Persisted(xs[i]))
    && (forall i, j :: 0 <= i < j < |xs| ==> xs[i].id.value < xs[j].id.value)
  }

  /** Ids strictly decrease along `xs`. */
  ghost predicate Descending(xs: seq<ChatMessage>) {
    && (forall i :: 0 <= i < |xs| ==> Persisted(xs[i]))
    && (forall i, j :: 0 <= i < j < |xs| ==> xs[i].id.value > xs[j].id.value)
  }

  /** The table invariant: rows are persisted, in ascending id order, and
      every id is below the next one the IDENTITY column will hand out. */
  ghost predicate Valid(s: Store) {
    && Ascending(s.rows)
    && (forall i :: 0 <= i < |s.rows| ==> s.rows[i].id.value < s.nextId)
  }

  /** There is a row with this id. */
  ghost predicate HasId(s: Store, id: int) {
    exists i :: 0 <= i < |s.rows| && s.rows[i].id == Some(id)
  }

  /** The position of the first row whose id is `id`. */
  function FindIndex(rows: seq<ChatMessage>, id: int): (r: Option<nat>)
    ensures r.Some? ==> r.value < |rows| && rows[r.value].id == Some(id)
    ensures r.Some? ==> forall j :: 0 <= j < r.value ==> rows[j].id != Some(id)
    ensures r.None? <==> forall j :: 0 <= j < |rows| ==> rows[j].id != Some(id)
  {
    if |rows| == 0 then None
    else if rows[0].id == Some(id) then Some(0)
    else match FindIndex(rows[1..], id)
      case None => None
      case Some(k) => Some(k + 1)
  }

  /** `findById`. */
  function FindById(s: Store, id: int): (r: Option<ChatMessage>)
    requires Valid(s)
    ensures r.Some? <==> HasId(s, id)
    ensures r.Some? ==> r.value in s.rows && r.value.id == Some(id)
  {
    match FindIndex(s.rows, id)
    case None => None
    case Some(i) => Some(s.rows[i])
  }

  /** The rows of `xs` whose room is `roomId`, in their order in `xs`. */
  function InRoom(xs: seq<ChatMessage>, roomId: string): (r: seq<ChatMessage>)
    ensures forall m :: m in r <==> m in xs && m.roomId == roomId
    ensures |r| <= |xs|
    ensures Ascending(xs) ==> Ascending(r)
  {
    if |xs| == 0 then []
    else
      var t := InRoom(xs[1..], roomId);
      assert Ascending(xs) ==> Ascending(xs[1..]) by {
        if Ascending(xs) {
          AscendingTail(xs);
        }
      }
      if xs[0].roomId == roomId then
        assert Ascending(xs) ==> Ascending([xs[0]] + t) by {
          if Ascending(xs) {
            AscendingCons(xs, t);
          }
        }
        [xs[0]] + t
      else t
  }

  /** Dropping the oldest row keeps the order. */
  lemma AscendingTail(xs: seq<ChatMessage>)
    requires Ascending(xs) && |xs| > 0
    ensures Ascending(xs[1..])
  {
    var t := xs[1..];
    forall i, j | 0 <= i < j < |t| ensures t[i].id.value < t[j].id.value {
      assert t[i] == xs[i + 1] && t[j] == xs[j + 1];
    }
  }

  /** The oldest row of `xs` goes in front of an ascending selection from
      the rest. */
  lemma AscendingCons(xs: seq<ChatMessage>, t: seq<ChatMessage>)
    requires Ascending(xs) && |xs| > 0 && Ascending(t)
    requires forall m :: m in t ==> m in xs[1..]
    ensures Ascending([xs[0]] + t)
  {
    var r := [xs[0]] + t;
    forall j | 0 < j < |r| ensures xs[0].id.value < r[j].id.value {
      assert r[j] in xs[1..];
      var k :| 0 <= k < |xs| - 1 && xs[1..][k] == r[j];
      assert xs[k + 1] == r[j];
    }
    forall i, j | 0 <= i < j < |r| ensures r[i].id.value < r[j].id.value {
      if i > 0 {
        assert r[i] == t[i - 1] && r[j] == t[j - 1];
      }
    }
  }

  /** `findByRoomId`. The derived query has no ORDER BY; the model returns
      the rows in ascending id order. */
  function FindByRoomId(s: Store, roomId: string): (r: seq<ChatMessage>)
    requires Valid(s)
    ensures forall m :: m in r <==> m in s.rows && m.roomId == roomId
    ensures Ascending(r)
  {
    InRoom(s.rows, roomId)
  }

  /** The first `k` rows of `all` reversed: for an ascending `all`, the `k`
      rows with the highest ids, highest first, and nothing with a higher id
      left out. */
  lemma {:induction false} NewestFirst(all: seq<ChatMessage>, k: nat)
    requires Ascending(all)
    ensures forall x :: x in Take(Reverse(all), k) ==> x in all
    ensures Descending(Take(Reverse(all), k))
    ensures forall m, x :: m in all && m !in Take(Reverse(all), k) && x in Take(Reverse(all), k) ==> m.id.value < x.id.value
  {
    var r := Take(Reverse(all), k);
    forall i | 0 <= i < |r| ensures r[i] == all[|all| - 1 - i] {
      assert r[i] == Reverse(all)[i];
    }
    forall a | 0 <= a < |all| && |all| - 1 - a < |r| ensures all[a] in r {
      assert r[|all| - 1 - a] == all[a];
    }
  }

  /** `findTop50ByRoomIdOrderByIdDesc`: the room's rows, highest id first,
      at most 50 of them, and no row of the room with a higher id than a
      returned one is left out. */
  function FindTop50ByRoomIdOrderByIdDesc(s: Store, roomId: string): (r: seq<ChatMessage>)
    requires Valid(s)
    ensures forall m :: m in r ==> m in s.rows && m.roomId == roomId
    ensures Descending(r)
    ensures |r| == if |FindByRoomId(s, roomId)| < TopN then |FindByRoomId(s, roomId)| else TopN
    ensures forall m, x :: m in FindByRoomId(s, roomId) && m !in r && x in r ==> m.id.value < x.id.value
  {
    var all := FindByRoomId(s, roomId);
    NewestFirst(all, TopN);
    Take(Reverse(all), TopN)
  }

  /** The copy of `m` the store keeps after an accepted update: one version
      later, stamped with the time of the write. */
  function Touched(m: ChatMessage, now: Instant): ChatMessage
    requires m.version.Some?
  {
    m.(version := Some(m.version.value + 1), updatedAt := Some(now))
  }

  /** The row that `s.rows[i] := row` leaves, every other row kept. */
  ghost predicate ReplacedAt(s: Store, s': Store, i: nat, row: ChatMessage) {
    i < |s.rows| && s' == s.(rows := s.rows[i := row])
  }

  /** `save`. A message without an id is inserted with the next IDENTITY
      value, version 0 and both timestamps set. A message with an id is
      merged onto its row only if the row exists and has the same version;
      a merge that changes nothing writes nothing, otherwise the version goes
      up by one. Returns the new table and the entity as stored. */
  function Save(s: Store, m: ChatMessage, now: Instant): (r: Result<(Store, ChatMessage), ChatError>)
    requires Valid(s)
    ensures r.Success? ==> Valid(r.value.0)
    // insert: a fresh id, appended, nothing else changes
    ensures m.id.None? ==> r.Success?
    ensures m.id.None? ==>
      && !HasId(s, s.nextId)
      && r.value.1 == m.(id := Some(s.nextId), version := Some(0), createdAt := Some(now), updatedAt := Some(now))
      && r.value.0 == Store(s.rows + [r.value.1], s.nextId + 1)
    // merge: compare-and-swap on the version
    ensures m.id.Some? ==>
      (r.Success? <==> exists i :: 0 <= i < |s.rows| && s.rows[i].id == m.id && s.rows[i].version == m.version)
    ensures m.id.Some? && r.Failure? ==> r.error == OptimisticLockConflict
    ensures m.id.Some? && r.Success? ==>
      exists i :: 0 <= i < |s.rows| && s.rows[i].id == m.id && ReplacedAt(s, r.value.0, i, r.value.1)
    ensures m.id.Some? && r.Success? ==>
      r.value.1 == if m in s.rows then m else Touched(m, now)
  {
    if m.id.None? then
      var saved := m.(id := Some(s.nextId), version := Some(0), createdAt := Some(now), updatedAt := Some(now));
      Success((Store(s.rows + [saved], s.nextId + 1), saved))
    else
      match FindIndex(s.rows, m.id.value)
      case None => Failure(OptimisticLockConflict)
      case Some(i) =>
        var row := s.rows[i];
        if row.version != m.version then Failure(OptimisticLockConflict)
        else if row == m then Success((s, row))
        else
          var saved := Touched(m, now);
          var s' := s.(rows := s.rows[i := saved]);
          assert m !in s.rows by {
            forall j | 0 <= j < |s.rows| ensures s.rows[j] != m {
              if s.rows[j].id == m.id {
                assert j == i;
              }
            }
          }
          Success((s', saved))
  }

  /** `saveAll`: saves each entity in order inside one transaction, so the
      first failure rolls the whole batch back. */
  function SaveAll(s: Store, ms: seq<ChatMessage>, now: Instant): (r: Result<(Store, seq<ChatMessage>), ChatError>)
    requires Valid(s)
    ensures r.Success? ==> Valid(r.value.0) && |r.value.1| == |ms|
    ensures r.Success? ==> r.value.0.nextId == s.nextId || exists i :: 0 <= i < |ms| && ms[i].id.None?
    // each returned entity is the stored form of its input: it has an id,
    // and a merged one differs from its input only in the version stamp
    ensures r.Success? ==> forall i :: 0 <= i < |ms| ==>
      && r.value.1[i].id.Some?
      && (ms[i].id.Some? ==> r.value.1[i].(version := ms[i].version, updatedAt := ms[i].updatedAt) == ms[i])
      && (ms[i].id.None? ==>
            r.value.1[i] == ms[i].(id := r.value.1[i].id, version := Some(0), createdAt := Some(now), updatedAt := Some(now)))
    // a batch of inserts always goes through; the only failure is a conflict
    ensures (forall i :: 0 <= i < |ms| ==> ms[i].id.None?) ==> r.Success?
    ensures r.Failure? ==> r.error == OptimisticLockConflict
    decreases |ms|
  {
    if |ms| == 0 then Success((s, []))
    else
      match Save(s, ms[0], now)
      case Failure(e) => Failure(e)
      case Success((s1, saved)) =>
        assert forall i :: 1 <= i < |ms| ==> ms[1..][i - 1] == ms[i];
        match SaveAll(s1, ms[1..], now)
        case Failure(e) => Failure(e)
        case Success((s2, rest)) =>
          var out := [saved] + rest;
          assert forall i :: 1 <= i < |ms| ==> out[i] == rest[i - 1];
          Success((s2, out))
  }

  /** Removing the row at `i` keeps the table valid and removes exactly the
      rows with that id. */
  lemma RemoveAt(s: Store, i: nat)
    requires Valid(s) && i < |s.rows|
    ensures Valid(s.(rows := s.rows[..i] + s.rows[i + 1..]))
    ensures forall x :: x in s.rows[..i] + s.rows[i + 1..] <==> x in s.rows && x.id != s.rows[i].id
  {
    var rest := s.rows[..i] + s.rows[i + 1..];
    assert forall j :: 0 <= j < |rest| ==> rest[j] == s.rows[if j < i then j else j + 1];
    assert s.rows == s.rows[..i] + [s.rows[i]] + s.rows[i + 1..];
  }

  /** `saveAll` on a non-empty batch: the first save, then the rest. */
  lemma SaveAllCons(s: Store, a: ChatMessage, ms: seq<ChatMessage>, now: Instant,
                    s1: Store, saved1: ChatMessage, s2: Store, saved: seq<ChatMessage>)
    requires Valid(s)
    requires Save(s, a, now) == Success((s1, saved1))
    requires Valid(s1) && SaveAll(s1, ms, now) == Success((s2, saved))
    ensures SaveAll(s, [a] + ms, now) == Success((s2, [saved1] + saved))
  {
    assert ([a] + ms)[1..] == ms;
  }

  /** `delete(entity)`: a never-saved entity and an id with no row are
      ignored; a row whose version differs is a conflict; otherwise the row
      is removed. */
  function Delete(s: Store, m: ChatMessage): (r: Result<Store, ChatError>)
    requires Valid(s)
    ensures r.Success? ==> Valid(r.value) && r.value.nextId == s.nextId
    ensures r.Success? && m.id.Some? ==> !HasId(r.value, m.id.value)
    ensures r.Success? ==> forall x :: x in r.value.rows <==> x in s.rows && x.id != m.id
    ensures r.Failure? <==>
      m.id.Some? && exists i :: 0 <= i < |s.rows| && s.rows[i].id == m.id && s.rows[i].version != m.version
  {
    if m.id.None? then Success(s)
    else
      match FindIndex(s.rows, m.id.value)
      case None => Success(s)
      case Some(i) =>
        if s.rows[i].version != m.version then Failure(OptimisticLockConflict)
        else
          RemoveAt(s, i);
          var s' := s.(rows := s.rows[..i] + s.rows[i + 1..]);
          Success(s')
  }
}

=== FILE: chat_service.dfy ===
/** `ChatService`: the message lifecycle over the message table.

    Every operation is a pure function of the table (and, where the code
    builds responses, the user directory). A failing operation returns
    `Failure` and no table, which is the transaction rolling back. */
module ChatService {
  import opened Wrappers
  import opened Errors
  import opened Domain
  import opened Seqs
  import opened Repository
  import opened Sorting
  import opened Events
  import opened Users

  const UnknownSender := "Unknown"

  datatype SendMessageCommand = SendMessageCommand(roomId: string, senderUid: string, content: string)
  datatype EditMessageCommand = EditMessageCommand(messageId: int, editorUid: string, newContent: string)
  datatype DeleteMessageCommand = DeleteMessageCommand(messageId: int, requesterUid: string)
  datatype EnterRoomCommand = EnterRoomCommand(roomId: string, userUid: string)

  /** The name shown for a sender: the directory's display name, or
      "Unknown" for a uid nobody has. */
  function SenderName(users: Directory, uid: string): string {
    FindDisplayName(users, uid).GetOr(UnknownSender)
  }

  /** `toResponseWithName`: the message's snapshot with the sender's name. */
  function ToResponseWithName(users: Directory, m: ChatMessage): (r: ChatMessageResponse)
    ensures r.id == m.id && r.roomId == m.roomId && r.senderUid == m.senderUid
    ensures r.content == m.content && r.status == m.status
    ensures r.createdAt == m.createdAt && r.updatedAt == m.updatedAt
    ensures m.senderUid in users ==> r.senderName == Some(users[m.senderUid])
    ensures m.senderUid !in users ==> r.senderName == Some(UnknownSender)
  {
    WithSenderName(From(m), SenderName(users, m.senderUid))
  }

  /** `stream().map(this::toResponseWithName)` over a list of messages. */
  function Responses(users: Directory, ms: seq<ChatMessage>): (r: seq<ChatMessageResponse>)
    ensures |r| == |ms|
    ensures forall i :: 0 <= i < |ms| ==> r[i] == ToResponseWithName(users, ms[i])
  {
    if |ms| == 0 then [] else [ToResponseWithName(users, ms[0])] + Responses(users, ms[1..])
  }

  // ---------------------------------------------------------------- send

  /** `send`: stores one new message with the command's room, sender and
      content and status SENT (presence plays no part), and answers with its
      snapshot. */
  function Send(s: Store, users: Directory, cmd: SendMessageCommand, now: Instant)
    : (r: Result<(Store, ChatMessageResponse), ChatError>)
    requires Valid(s)
    ensures r.Success?
    ensures Valid(r.value.0)
    ensures !HasId(s, s.nextId) && r.value.0.nextId > s.nextId
    ensures |r.value.0.rows| == |s.rows| + 1 && r.value.0.rows[..|s.rows|] == s.rows
    ensures var m := r.value.0.rows[|s.rows|];
      && m.id == Some(s.nextId)
      && (forall j :: 0 <= j < |s.rows| ==> s.rows[j].id.value < m.id.value)
      && m.roomId == cmd.roomId && m.senderUid == cmd.senderUid && m.content == cmd.content
      && m.status == SENT
      && r.value.1 == ToResponseWithName(users, m)
  {
    var draft := NewMessage(cmd.roomId, cmd.senderUid, cmd.content, SENT);
    match Save(s, draft, now)
    case Failure(e) => Failure(e)
    case Success((s', saved)) =>
      assert s'.rows[..|s.rows|] == s.rows;
      Success((s', ToResponseWithName(users, saved)))
  }

  // ---------------------------------------------------------------- edit and delete

  /** The guard `edit` and `delete` share, in the code's order: the message
      must exist, belong to the requester, and not be READ. */
  function CheckOwnUnread(s: Store, messageId: int, requesterUid: string): (r: Result<ChatMessage, ChatError>)
    requires Valid(s)
    ensures !HasId(s, messageId) ==> r == Failure(MessageNotFound)
    ensures forall i :: 0 <= i < |s.rows| && s.rows[i].id == Some(messageId) ==>
      && (s.rows[i].senderUid != requesterUid ==> r == Failure(NotSender))
      && (s.rows[i].senderUid == requesterUid && s.rows[i].status == READ ==> r == Failure(AlreadyRead))
      && (s.rows[i].senderUid == requesterUid && s.rows[i].status != READ ==> r == Success(s.rows[i]))
  {
    match FindById(s, messageId)
    case None => Failure(MessageNotFound)
    case Some(m) =>
      if m.senderUid != requesterUid then Failure(NotSender)
      else if m.status == READ then Failure(AlreadyRead)
      else Success(m)
  }

  /** The table after an edit of row `i`: that row has the new content and
      status SENT and keeps its id, room, sender and creation time; every
      other row is unchanged. */
  ghost predicate EditedAt(s: Store, s': Store, i: nat, newContent: string) {
    && i < |s.rows|
    && s'.nextId == s.nextId
    && |s'.rows| == |s.rows|
    && (forall j :: 0 <= j < |s.rows| && j != i ==> s'.rows[j] == s.rows[j])
    && s'.rows[i].content == newContent
    && s'.rows[i].status == SENT
    && s'.rows[i].id == s.rows[i].id
    && s'.rows[i].roomId == s.rows[i].roomId
    && s'.rows[i].senderUid == s.rows[i].senderUid
    && s'.rows[i].createdAt == s.rows[i].createdAt
  }

  /** `edit`: fails without touching the table when the message is missing,
      belongs to someone else, or is READ (checked in that order); otherwise
      replaces the content, resets the status to SENT and answers with the
      stored snapshot. */
  function Edit(s: Store, users: Directory, cmd: EditMessageCommand, now: Instant)
    : (r: Result<(Store, ChatMessageResponse), ChatError>)
    requires Valid(s)
    ensures r.Success? ==> Valid(r.value.0)
    ensures !HasId(s, cmd.messageId) ==> r == Failure(MessageNotFound)
    ensures forall i :: 0 <= i < |s.rows| && s.rows[i].id == Some(cmd.messageId) ==>
      && (s.rows[i].senderUid != cmd.editorUid ==> r == Failure(NotSender))
      && (s.rows[i].senderUid == cmd.editorUid && s.rows[i].status == READ ==> r == Failure(AlreadyRead))
      && (s.rows[i].senderUid == cmd.editorUid && s.rows[i].status != READ ==>
            && r.Success?
            && EditedAt(s, r.value.0, i, cmd.newContent)
            && r.value.1 == ToResponseWithName(users, r.value.0.rows[i]))
  {
    match CheckOwnUnread(s, cmd.messageId, cmd.editorUid)
    case Failure(e) => Failure(e)
    case Success(origin) =>
      var updated := ChangeStatus(ChangeContent(origin, cmd.newContent), SENT);
      match Save(s, updated, now)
      case Failure(e) => Failure(e)
      case Success((s', saved)) => Success((s', ToResponseWithName(users, saved)))
  }

  /** `delete`: the same guards as `edit`; on success the row is gone, every
      other row stays, and the event names the removed id and its room. */
  function Delete(s: Store, cmd: DeleteMessageCommand): (r: Result<(Store, DeletedMessageEvent), ChatError>)
    requires Valid(s)
    ensures r.Success? ==> Valid(r.value.0) && r.value.0.nextId == s.nextId
    ensures r.Success? ==> !HasId(r.value.0, cmd.messageId)
    ensures r.Success? ==> forall x :: x in r.value.0.rows <==> x in s.rows && x.id != Some(cmd.messageId)
    ensures !HasId(s, cmd.messageId) ==> r == Failure(MessageNotFound)
    ensures forall i :: 0 <= i < |s.rows| && s.rows[i].id == Some(cmd.messageId) ==>
      && (s.rows[i].senderUid != cmd.requesterUid ==> r == Failure(NotSender))
      && (s.rows[i].senderUid == cmd.requesterUid && s.rows[i].status == READ ==> r == Failure(AlreadyRead))
      && (s.rows[i].senderUid == cmd.requesterUid && s.rows[i].status != READ ==>
            r.Success? && r.value.1 == DeletedMessageEvent(Some(cmd.messageId), s.rows[i].roomId))
  {
    match CheckOwnUnread(s, cmd.messageId, cmd.requesterUid)
    case Failure(e) => Failure(e)
    case Success(m) =>
      match Repository.Delete(s, m)
      case Failure(e) => Failure(e)
      case Success(s') => Success((s', DeletedMessageEvent(m.id, m.roomId)))
  }

  // ---------------------------------------------------------------- enter

  /** The two stream filters of `enter`: not sent by `me`, and SENT or
      DELIVERED. */
  function OthersUnread(ms: seq<ChatMessage>, me: string): (r: seq<ChatMessage>)
    ensures forall m :: m in r <==> m in ms && m.senderUid != me && (m.status == SENT || m.status == DELIVERED)
    ensures |r| <= |ms|
  {
    if |ms| == 0 then []
    else
      var m := ms[0];
      if m.senderUid != me && (m.status == SENT || m.status == DELIVERED)
      then [m] + OthersUnread(ms[1..], me)
      else OthersUnread(ms[1..], me)
  }

  /** The `toBuilder().status(READ).build()` map of `enter`. */
  function MarkAllRead(ms: seq<ChatMessage>): (r: seq<ChatMessage>)
    ensures |r| == |ms|
    ensures forall i :: 0 <= i < |ms| ==> r[i].status == READ && r[i].(status := ms[i].status) == ms[i]
  {
    if |ms| == 0 then [] else [ChangeStatus(ms[0], READ)] + MarkAllRead(ms[1..])
  }

  /** `enter`: marks every SENT or DELIVERED message of the room sent by
      someone other than the entering user as READ, and answers with the
      snapshots of exactly the messages it changed, in id order. */
  function Enter(s: Store, users: Directory, cmd: EnterRoomCommand, now: Instant)
    : (r: Result<(Store, seq<ChatMessageResponse>), ChatError>)
    requires Valid(s)
    ensures r.Success?
    ensures Valid(r.value.0)
    ensures r.value.0 == s.(rows := ReadAll(s.rows, cmd.roomId, cmd.userUid, now))
    ensures r.value.1 == Responses(users, MarkedAll(Pending(s.rows, cmd.roomId, cmd.userUid), now))
    ensures EnterEffects(s, r.value.0, r.value.1, cmd.roomId, cmd.userUid)
  {
    var toUpdate := MarkAllRead(OthersUnread(FindByRoomId(s, cmd.roomId), cmd.userUid));
    PendingIsTheQuery(s.rows, cmd.roomId, cmd.userUid);
    assert Store([] + s.rows, s.nextId) == s;
    SaveAllMarksRead([], s.rows, s.nextId, cmd.roomId, cmd.userUid, now);
    ReadAllEffects(s, users, cmd.roomId, cmd.userUid, now);
    match SaveAll(s, toUpdate, now)
    case Failure(e) => Failure(e)
    case Success((s', saved)) => Success((s', Responses(users, saved)))
  }

  /** What `enter` promises about the table before (`s`) and after (`s'`)
      and its answer `res`. */
  ghost predicate EnterEffects(s: Store, s': Store, res: seq<ChatMessageResponse>, roomId: string, me: string) {
    && |s'.rows| == |s.rows|
    && s'.nextId == s.nextId
    // no message of the room from someone else is left SENT or DELIVERED
    && (forall i :: 0 <= i < |s'.rows| && s'.rows[i].roomId == roomId && s'.rows[i].senderUid != me ==>
          s'.rows[i].status == READ)
    // a row changes exactly when it was pending, and then only in its status and version stamp
    && (forall i :: 0 <= i < |s.rows| ==> (s'.rows[i] != s.rows[i] <==> Unread(s.rows[i], roomId, me)))
    && (forall i :: 0 <= i < |s.rows| ==>
          s'.rows[i].(status := s.rows[i].status, version := s.rows[i].version, updatedAt := s.rows[i].updatedAt)
            == s.rows[i])
    // the answer: one READ snapshot per changed row
    && |res| == |Pending(s.rows, roomId, me)|
    && (forall k :: 0 <= k < |res| ==> res[k].status == READ && res[k].roomId == roomId && res[k].senderUid != me)
  }

  /** `ReadAll` and the answer built from `Pending` meet `EnterEffects`. */
  lemma ReadAllEffects(s: Store, users: Directory, roomId: string, me: string, now: Instant)
    requires Valid(s)
    ensures forall m :: m in s.rows ==> m.version.Some?
    ensures forall m :: m in Pending(s.rows, roomId, me) ==> m.version.Some?
    ensures EnterEffects(s, s.(rows := ReadAll(s.rows, roomId, me, now)),
                         Responses(users, MarkedAll(Pending(s.rows, roomId, me), now)), roomId, me)
  {
    var p := Pending(s.rows, roomId, me);
    var res := Responses(users, MarkedAll(p, now));
    forall k | 0 <= k < |res|
      ensures res[k].status == READ && res[k].roomId == roomId && res[k].senderUid != me
    {
      assert p[k] in p;
    }
  }

  /** A message `enter` must change: in the room, from someone else, unread. */
  predicate Unread(m: ChatMessage, roomId: string, me: string) {
    m.roomId == roomId && m.senderUid != me && (m.status == SENT || m.status == DELIVERED)
  }

  /** The messages of `rows` that `enter` changes, in order. */
  function Pending(rows: seq<ChatMessage>, roomId: string, me: string): (r: seq<ChatMessage>)
    ensures forall m :: m in r <==> m in rows && Unread(m, roomId, me)
  {
    if |rows| == 0 then []
    else if Unread(rows[0], roomId, me) then [rows[0]] + Pending(rows[1..], roomId, me)
    else Pending(rows[1..], roomId, me)
  }

  /** A message as `enter` stores it: READ, one version later. */
  function Marked(m: ChatMessage, now: Instant): ChatMessage
    requires m.version.Some?
  {
    Touched(ChangeStatus(m, READ), now)
  }

  function MarkedAll(ms: seq<ChatMessage>, now: Instant): (r: seq<ChatMessage>)
    requires forall m :: m in ms ==> m.version.Some?
    ensures |r| == |ms|
    ensures forall i :: 0 <= i < |ms| ==> r[i] == Marked(ms[i], now)
  {
    if |ms| == 0 then [] else [Marked(ms[0], now)] + MarkedAll(ms[1..], now)
  }

  /** The rows after `enter`: each message it must change is stored READ,
      every other row is kept as it was. */
  function ReadAll(rows: seq<ChatMessage>, roomId: string, me: string, now: Instant): (r: seq<ChatMessage>)
    requires forall m :: m in rows ==> m.version.Some?
    ensures |r| == |rows|
    ensures forall i :: 0 <= i < |rows| && Unread(rows[i], roomId, me) ==> r[i] == Marked(rows[i], now)
    ensures forall i :: 0 <= i < |rows| && !Unread(rows[i], roomId, me) ==> r[i] == rows[i]
  {
    if |rows| == 0 then []
    else
      var head := if Unread(rows[0], roomId, me) then Marked(rows[0], now) else rows[0];
      [head] + ReadAll(rows[1..], roomId, me, now)
  }

  /** The code's query-then-filter pipeline selects exactly `Pending`. */
  lemma {:induction false} PendingIsTheQuery(rows: seq<ChatMessage>, roomId: string, me: string)
    ensures OthersUnread(InRoom(rows, roomId), me) == Pending(rows, roomId, me)
  {
    if |rows| > 0 {
      PendingIsTheQuery(rows[1..], roomId, me);
    }
  }

  /** Saving the READ copy of an unread row replaces that row with its
      marked form and changes nothing else. */
  lemma SaveMarksOne(done: seq<ChatMessage>, x: ChatMessage, tail: seq<ChatMessage>, nextId: int, now: Instant)
    requires Valid(Store(done + [x] + tail, nextId))
    requires x.status != READ
    ensures x.version.Some?
    ensures Save(Store(done + [x] + tail, nextId), ChangeStatus(x, READ), now)
      == Success((Store(done + [Marked(x, now)] + tail, nextId), Marked(x, now)))
  {
    var s := Store(done + [x] + tail, nextId);
    var a := ChangeStatus(x, READ);
    assert s.rows[|done|] == x;
    assert FindIndex(s.rows, x.id.value) == Some(|done|);
    assert a !in s.rows by {
      forall j | 0 <= j < |s.rows| ensures s.rows[j] != a {
        if s.rows[j].id == a.id {
          assert j == |done|;
        }
      }
    }
    assert s.rows[|done| := Marked(x, now)] == done + [Marked(x, now)] + tail;
  }

  /** Every row of a valid table has a version. */
  lemma RowsHaveVersions(done: seq<ChatMessage>, rest: seq<ChatMessage>, nextId: int)
    requires Valid(Store(done + rest, nextId))
    ensures forall m :: m in rest ==> m.version.Some?
  {
    forall m | m in rest ensures m.version.Some? {
      var i :| 0 <= i < |rest| && rest[i] == m;
      assert (done + rest)[|done| + i] == m;
    }
  }

  /** Saving the marked copies of the pending messages of `rest`, one by
      one, turns the table into `done + ReadAll(rest)` and returns the
      marked rows in order. */
  lemma {:induction false} SaveAllMarksRead(
    done: seq<ChatMessage>, rest: seq<ChatMessage>, nextId: int, roomId: string, me: string, now: Instant)
    requires Valid(Store(done + rest, nextId))
    decreases |rest|, 1
    ensures forall m :: m in rest ==> m.version.Some?
    ensures SaveAll(Store(done + rest, nextId), MarkAllRead(Pending(rest, roomId, me)), now)
      == Success((Store(done + ReadAll(rest, roomId, me, now), nextId), MarkedAll(Pending(rest, roomId, me), now)))
  {
    RowsHaveVersions(done, rest, nextId);
    if |rest| > 0 {
      var x, tail := rest[0], rest[1..];
      if Unread(x, roomId, me) {
        assert rest == [x] + tail;
        SaveAllMarksReadUnread(done, x, tail, nextId, roomId, me, now);
      } else {
        SkipCons(rest, roomId, me, now);
        MoveHead(done, rest);
        SaveAllMarksRead(done + [x], tail, nextId, roomId, me, now);
        Regroup(done, x, ReadAll(tail, roomId, me, now));
      }
    }
  }

  /** Proof step for `SaveAllMarksRead`: `Pending` and `ReadAll` when the
      first row is not pending. */
  lemma SkipCons(rest: seq<ChatMessage>, roomId: string, me: string, now: Instant)
    requires |rest| > 0 && !Unread(rest[0], roomId, me)
    requires forall m :: m in rest ==> m.version.Some?
    ensures Pending(rest, roomId, me) == Pending(rest[1..], roomId, me)
    ensures ReadAll(rest, roomId, me, now) == [rest[0]] + ReadAll(rest[1..], roomId, me, now)
  {
  }

  /** The step of `SaveAllMarksRead` where the next row is one to mark. */
  lemma {:induction false} SaveAllMarksReadUnread(
    done: seq<ChatMessage>, x: ChatMessage, tail: seq<ChatMessage>, nextId: int, roomId: string, me: string, now: Instant)
    requires Valid(Store(done + ([x] + tail), nextId))
    requires Unread(x, roomId, me)
    decreases |tail| + 1, 0
    ensures forall m :: m in [x] + tail ==> m.version.Some?
    ensures SaveAll(Store(done + ([x] + tail), nextId), MarkAllRead(Pending([x] + tail, roomId, me)), now)
      == Success((Store(done + ReadAll([x] + tail, roomId, me, now), nextId), MarkedAll(Pending([x] + tail, roomId, me), now)))
  {
    var rest := [x] + tail;
    RowsHaveVersions(done, rest, nextId);
    var mx := Marked(x, now);
    var todoTail := MarkAllRead(Pending(tail, roomId, me));
    var s1 := Store((done + [mx]) + tail, nextId);
    var s2 := Store((done + [mx]) + ReadAll(tail, roomId, me, now), nextId);
    var savedTail := MarkedAll(Pending(tail, roomId, me), now);
    PendingCons(x, tail, roomId, me);
    ReadCons(done, x, tail, roomId, me, now);
    SaveMarksOne(done, x, tail, nextId, now);
    SaveAllMarksRead(done + [mx], tail, nextId, roomId, me, now);
    SaveAllCons(Store(done + rest, nextId), ChangeStatus(x, READ), todoTail, now, s1, mx, s2, savedTail);
  }

  /** Proof step for `SaveAllMarksReadUnread`: `ReadAll` and `MarkedAll`
      when the first row is pending, and the regroupings it needs. */
  lemma ReadCons(done: seq<ChatMessage>, x: ChatMessage, tail: seq<ChatMessage>, roomId: string, me: string, now: Instant)
    requires Unread(x, roomId, me) && x.version.Some?
    requires forall m :: m in tail ==> m.version.Some?
    ensures done + ([x] + tail) == done + [x] + tail
    ensures done + [Marked(x, now)] + tail == (done + [Marked(x, now)]) + tail
    ensures MarkedAll(Pending([x] + tail, roomId, me), now) == [Marked(x, now)] + MarkedAll(Pending(tail, roomId, me), now)
    ensures (done + [Marked(x, now)]) + ReadAll(tail, roomId, me, now) == done + ReadAll([x] + tail, roomId, me, now)
  {
    assert ([x] + tail)[1..] == tail;
    assert Pending([x] + tail, roomId, me) == [x] + Pending(tail, roomId, me);
    assert ([x] + Pending(tail, roomId, me))[1..] == Pending(tail, roomId, me);
    assert ReadAll([x] + tail, roomId, me, now) == [Marked(x, now)] + ReadAll(tail, roomId, me, now);
  }

  /** Proof step for `SaveAllMarksReadUnread`: the pending list and its
      marked forms when the first row is pending. */
  lemma PendingCons(x: ChatMessage, tail: seq<ChatMessage>, roomId: string, me: string)
    requires Unread(x, roomId, me)
    ensures Pending([x] + tail, roomId, me) == [x] + Pending(tail, roomId, me)
    ensures MarkAllRead(Pending([x] + tail, roomId, me)) == [ChangeStatus(x, READ)] + MarkAllRead(Pending(tail, roomId, me))
  {
    assert ([x] + tail)[1..] == tail;
  }

  /** `enter` run a second time, with no write in between, changes nothing
      and answers with an empty list. */
  lemma EnterIsIdempotent(s: Store, users: Directory, cmd: EnterRoomCommand, now: Instant, later: Instant)
    requires Valid(s)
    ensures var first := Enter(s, users, cmd, now).value.0;
      Enter(first, users, cmd, later) == Success((first, []))
  {
    ReadAllIsIdempotent(s.rows, cmd.roomId, cmd.userUid, now, later);
  }

  /** Once every pending row is marked, none is pending any more, and
      marking again, at any later time, changes nothing. */
  lemma {:induction false} ReadAllIsIdempotent(rows: seq<ChatMessage>, roomId: string, me: string, now: Instant, later: Instant)
    requires forall m :: m in rows ==> m.version.Some?
    ensures forall m :: m in ReadAll(rows, roomId, me, now) ==> m.version.Some?
    ensures Pending(ReadAll(rows, roomId, me, now), roomId, me) == []
    ensures ReadAll(ReadAll(rows, roomId, me, now), roomId, me, later) == ReadAll(rows, roomId, me, now)
  {
    var once := ReadAll(rows, roomId, me, now);
    forall m | m in once ensures m.version.Some? {
      var i :| 0 <= i < |once| && once[i] == m;
      assert rows[i] in rows;
    }
    ReadAllSettles(rows, roomId, me, now);
    NothingPending(once, roomId, me, later);
  }

  /** After `ReadAll` no row is pending any more. */
  lemma ReadAllSettles(rows: seq<ChatMessage>, roomId: string, me: string, now: Instant)
    requires forall m :: m in rows ==> m.version.Some?
    ensures forall i :: 0 <= i < |rows| ==> !Unread(ReadAll(rows, roomId, me, now)[i], roomId, me)
  {
  }

  /** With no pending row, `Pending` is empty and `ReadAll` changes nothing. */
  lemma {:induction false} NothingPending(rows: seq<ChatMessage>, roomId: string, me: string, now: Instant)
    requires forall m :: m in rows ==> m.version.Some?
    requires forall i :: 0 <= i < |rows| ==> !Unread(rows[i], roomId, me)
    ensures Pending(rows, roomId, me) == []
    ensures ReadAll(rows, roomId, me, now) == rows
  {
    if |rows| > 0 {
      NothingPending(rows[1..], roomId, me, now);
    }
  }

  // ---------------------------------------------------------------- fetchRecent

  /** The number of rows in the newest-50 window of a room of `n` rows. */
  function WindowSize(n: nat): nat {
    if n < TopN then n else TopN
  }

  /** The messages `fetchRecent` answers with: the room's newest 50 rows,
      sorted by ascending id, cut to `limit`. That is the `limit` OLDEST of
      the newest 50, not the newest `limit`. */
  function RecentMessages(s: Store, roomId: string, limit: nat): (r: seq<ChatMessage>)
    requires Valid(s)
    ensures forall m :: m in r ==> m in s.rows && m.roomId == roomId
    ensures Ascending(r)
    ensures |r| <= limit && |r| <= TopN && |r| <= |FindByRoomId(s, roomId)|
    ensures var all := FindByRoomId(s, roomId);
      r == Take(all[|all| - WindowSize(|all|)..], limit)
  {
    var top := FindTop50ByRoomIdOrderByIdDesc(s, roomId);
    SortDescendingIsReverse(top);
    RecentIsWindow(s, roomId, limit);
    Take(SortById(top), limit)
  }

  /** Sorting the newest-first page and cutting it is cutting the ascending
      window of the room's last rows. */
  lemma RecentIsWindow(s: Store, roomId: string, limit: nat)
    requires Valid(s)
    ensures Sorting.HaveIds(FindTop50ByRoomIdOrderByIdDesc(s, roomId))
    ensures var all := FindByRoomId(s, roomId);
      var r := Take(SortById(FindTop50ByRoomIdOrderByIdDesc(s, roomId)), limit);
      && r == Take(all[|all| - WindowSize(|all|)..], limit)
      && (forall m :: m in r ==> m in all)
      && Ascending(r)
  {
    var all := FindByRoomId(s, roomId);
    NewestFirst(all, TopN);
    PageSortsToWindow(all, limit);
    WindowIsAscending(all, |all| - WindowSize(|all|), limit);
  }

  /** The same, for any ascending row list and its newest-first page. */
  lemma PageSortsToWindow(all: seq<ChatMessage>, limit: nat)
    requires Ascending(all)
    requires Descending(Take(Reverse(all), TopN))
    ensures Sorting.HaveIds(Take(Reverse(all), TopN))
    ensures Take(SortById(Take(Reverse(all), TopN)), limit) == Take(all[|all| - WindowSize(|all|)..], limit)
  {
    SortDescendingIsReverse(Take(Reverse(all), TopN));
    ReverseTakeReverse(all, WindowSize(|all|));
  }

  /** A cut of a suffix of an ascending list is ascending and drawn from it. */
  lemma WindowIsAscending(all: seq<ChatMessage>, start: nat, limit: nat)
    requires Ascending(all) && start <= |all|
    ensures forall m :: m in Take(all[start..], limit) ==> m in all
    ensures Ascending(Take(all[start..], limit))
  {
    var r := Take(all[start..], limit);
    assert forall i :: 0 <= i < |r| ==> r[i] == all[start + i];
  }

  /** `fetchRecent`: a negative limit throws; otherwise the snapshots of
      `RecentMessages`, all of the room, in strictly ascending id order, at
      most `limit`, at most 50, at most the room's message count. */
  function FetchRecent(s: Store, users: Directory, roomId: string, limit: int)
    : (r: Result<seq<ChatMessageResponse>, ChatError>)
    requires Valid(s)
    ensures r.Failure? <==> limit < 0
    ensures r.Failure? ==> r.error == NegativeLimit
    ensures r.Success? ==> r.value == Responses(users, RecentMessages(s, roomId, limit))
    ensures r.Success? ==>
      && |r.value| <= limit && |r.value| <= TopN && |r.value| <= |FindByRoomId(s, roomId)|
      && (forall i :: 0 <= i < |r.value| ==> r.value[i].roomId == roomId && r.value[i].id.Some?)
      && (forall i, j :: 0 <= i < j < |r.value| ==> r.value[i].id.value < r.value[j].id.value)
  {
    if limit < 0 then Failure(NegativeLimit)
    else
      var ms := RecentMessages(s, roomId, limit);
      ResponsesKeepOrder(users, ms, roomId);
      Success(Responses(users, ms))
  }

  /** Snapshots of ascending rows of one room are of that room and in
      strictly ascending id order. */
  lemma ResponsesKeepOrder(users: Directory, ms: seq<ChatMessage>, roomId: string)
    requires Ascending(ms)
    requires forall m :: m in ms ==> m.roomId == roomId
    ensures var res := Responses(users, ms);
      && (forall i :: 0 <= i < |res| ==> res[i].roomId == roomId && res[i].id.Some?)
      && (forall i, j :: 0 <= i < j < |res| ==> res[i].id.value < res[j].id.value)
  {
    var res := Responses(users, ms);
    forall i | 0 <= i < |res| ensures res[i].roomId == roomId && res[i].id == ms[i].id {
      assert ms[i] in ms;
    }
  }

  /** When `limit` is below the size of the newest-50 window, the room's
      newest message is not among the answer: `fetchRecent` returns the
      start of the window, not its end. */
  lemma FetchRecentMissesNewest(s: Store, roomId: string, limit: nat)
    requires Valid(s)
    requires limit < |FindByRoomId(s, roomId)| && limit < TopN
    ensures var all := FindByRoomId(s, roomId);
      all[|all| - 1] !in RecentMessages(s, roomId, limit)
  {
    WindowMissesLast(FindByRoomId(s, roomId), limit);
  }

  lemma WindowMissesLast(all: seq<ChatMessage>, limit: nat)
    requires Ascending(all)
    requires limit < WindowSize(|all|)
    ensures all[|all| - 1] !in Take(all[|all| - WindowSize(|all|)..], limit)
  {
    var k := WindowSize(|all|);
    var r := Take(all[|all| - k..], limit);
    forall i | 0 <= i < |r| ensures r[i] != all[|all| - 1] {
      assert r[i] == all[|all| - k + i];
    }
  }
}

=== FILE: errors.dfy ===
/** The exceptions the modelled code throws, one constructor per distinct cause. */
module Errors {

  datatype ChatError =
    /** `findById` found nothing: IllegalArgumentException("message not found"). */
    | MessageNotFound
    /** The requester is not the message's sender: IllegalStateException. */
    | NotSender
    /** The message is already READ: IllegalStateException. */
    | AlreadyRead
    /** A write carried a stale optimistic-lock version, or its row is gone. */
    | OptimisticLockConflict
    /** `Stream.limit` was given a negative size: IllegalArgumentException. */
    | NegativeLimit
    /** No user has this uid: IllegalArgumentException("user not found: ..."). */
    | UserNotFound(uid: string)
    /** The room string does not split into exactly two uids. */
    | InvalidRoomFormat(room: string)
    /** The STOMP session has no attribute map: NullPointerException. */
    | MissingSessionAttributes
}

=== FILE: events.dfy ===
/** The payloads the server hands to the broker or to REST callers:
    `ChatMessageResponse`, `DeletedMessageEvent` and `WsEvent`. */
module Events {
  import opened Wrappers
  import opened Domain

  /** A message snapshot as clients see it. It has no version field. */
  datatype ChatMessageResponse = ChatMessageResponse(
    id: Option<int>,
    roomId: string,
    senderUid: string,
    senderName: Option<string>,
    content: string,
    status: MessageStatus,
    createdAt: Option<Instant>,
    updatedAt: Option<Instant>)

  /** `ChatMessageResponse.from`: copies seven fields of the entity and
      leaves `senderName` unset. */
  function From(m: ChatMessage): (r: ChatMessageResponse)
    ensures r.senderName.None?
    ensures r.id == m.id && r.roomId == m.roomId && r.senderUid == m.senderUid
    ensures r.content == m.content && r.status == m.status
    ensures r.createdAt == m.createdAt && r.updatedAt == m.updatedAt
  {
    ChatMessageResponse(m.id, m.roomId, m.senderUid, None, m.content, m.status, m.createdAt, m.updatedAt)
  }

  /** The entity a response was built from, given the version the response
      does not carry. */
  function Restore(r: ChatMessageResponse, version: Option<int>): ChatMessage {
    ChatMessage(r.id, r.roomId, r.senderUid, r.content, r.status, r.createdAt, r.updatedAt, version)
  }

  /** `from` loses exactly the version: the entity is recovered from the
      response and the version, and two entities that differ only in their
      version give the same response. */
  lemma FromLosesOnlyVersion(m: ChatMessage, m': ChatMessage)
    ensures Restore(From(m), m.version) == m
    ensures From(m) == From(m') <==> m.(version := m'.version) == m'
  {
  }

  /** `withSenderName`: sets the sender name and nothing else. */
  function WithSenderName(r: ChatMessageResponse, name: string): (r': ChatMessageResponse)
    ensures r'.senderName == Some(name)
    ensures r'.(senderName := r.senderName) == r
  {
    r.(senderName := Some(name))
  }

  /** What `ChatService.delete` returns: the removed message's id and room. */
  datatype DeletedMessageEvent = DeletedMessageEvent(messageId: Option<int>, roomId: string)

  /** A small typed event; null fields are left out of its JSON form. */
  datatype WsEvent = WsEvent(eventType: Option<string>, messageId: Option<int>, senderUid: Option<string>)

  /** `WsEvent.deleted`: the deletion marker. */
  function Deleted(messageId: Option<int>): (e: WsEvent)
    ensures e.eventType == Some("deleted")
    ensures e.messageId == messageId
    ensures e.senderUid.None?
  {
    WsEvent(Some("deleted"), messageId, None)
  }

  /** The JSON keys of a `WsEvent`: only its non-null fields
      (`JsonInclude.Include.NON_NULL`). */
  function WsEventKeys(e: WsEvent): set<string> {
    (if e.eventType.Some? then {"type"} else {})
    + (if e.messageId.Some? then {"messageId"} else {})
    + (if e.senderUid.Some? then {"senderUid"} else {})
  }

  /** A deletion marker for a real id carries exactly a type and a message
      id: no room, no sender. */
  lemma DeletedMarkerKeys(id: int)
    ensures WsEventKeys(Deleted(Some(id))) == {"type", "messageId"}
    ensures "roomId" !in WsEventKeys(Deleted(Some(id)))
  {
  }
}

=== FILE: java_split.dfy ===
/** `String.split("__")` with Java's semantics: the input is cut at the
    leftmost non-overlapping occurrences of the separator; an input without
    one comes back whole; otherwise trailing empty strings are dropped. */
module JavaSplit {
  import opened Wrappers

  const Separator := "__"

  /** The separator occurs at position `i` of `s`. */
  predicate MatchAt(s: string, i: int) {
    0 <= i && i + 2 <= |s| && s[i] == '_' && s[i + 1] == '_'
  }

  /** `s` contains no separator. */
  ghost predicate NoSeparator(s: string) {
    forall i :: 0 <= i < |s| ==> !MatchAt(s, i)
  }

  /** `s` contains no separator and does not end in `_`, so a separator
      written after it starts right where it ends (a UUID is such a string). */
  ghost predicate Clean(s: string) {
    NoSeparator(s) && (|s| == 0 || s[|s| - 1] != '_')
  }

  /** The leftmost occurrence of the separator (`Matcher.find`). */
  function FirstMatch(s: string): (r: Option<nat>)
    ensures r.Some? ==> MatchAt(s, r.value) && forall j :: 0 <= j < r.value ==> !MatchAt(s, j)
    ensures r.None? <==> NoSeparator(s)
  {
    if |s| < 2 then None
    else if s[0] == '_' && s[1] == '_' then Some(0)
    else match FirstMatch(s[1..])
      case None =>
        assert forall j :: 1 <= j < |s| ==> (MatchAt(s, j) <==> MatchAt(s[1..], j - 1));
        None
      case Some(k) =>
        assert forall j :: 1 <= j < |s| ==> (MatchAt(s, j) <==> MatchAt(s[1..], j - 1));
        Some(k + 1)
  }

  /** The pieces between successive leftmost separators, empty ones kept.
      Every piece but the last is clean: a piece ending in `_` would have
      let the separator match one position earlier. With `JoinPieces` this
      pins the cuts to the leftmost matches. */
  function Pieces(s: string): (r: seq<string>)
    ensures |r| >= 1
    ensures forall k :: 0 <= k < |r| ==> NoSeparator(r[k])
    ensures forall k :: 0 <= k < |r| - 1 ==> Clean(r[k])
    decreases |s|
  {
    match FirstMatch(s)
    case None => [s]
    case Some(i) =>
      assert NoSeparator(s[..i]) by {
        forall j | 0 <= j < i ensures !MatchAt(s[..i], j) {
          assert MatchAt(s[..i], j) ==> MatchAt(s, j);
        }
      }
      assert i > 0 ==> !MatchAt(s, i - 1);
      var rest := Pieces(s[i + 2..]);
      var r := [s[..i]] + rest;
      assert forall k :: 1 <= k < |r| ==> r[k] == rest[k - 1];
      r
  }

  /** Drops empty strings from the end (`split` with limit 0): what is kept
      is a prefix ending in a non-empty string, and everything dropped is
      empty. */
  function DropTrailingEmpty(xs: seq<string>): (r: seq<string>)
    ensures r <= xs
    ensures |r| == 0 || r[|r| - 1] != ""
    ensures forall k :: |r| <= k < |xs| ==> xs[k] == ""
  {
    if |xs| > 0 && xs[|xs| - 1] == "" then DropTrailingEmpty(xs[..|xs| - 1]) else xs
  }

  /** `s.split("__")`: the whole string when it has no separator; otherwise
      the pieces up to the last non-empty one. */
  function Split(s: string): (r: seq<string>)
    ensures FirstMatch(s).None? ==> r == [s]
    ensures r <= Pieces(s)
    ensures forall k :: |r| <= k < |Pieces(s)| ==> Pieces(s)[k] == ""
    ensures FirstMatch(s).Some? ==> |r| == 0 || r[|r| - 1] != ""
    ensures forall k :: 0 <= k < |r| ==> NoSeparator(r[k])
  {
    if FirstMatch(s).None? then [s] else DropTrailingEmpty(Pieces(s))
  }

  /** The pieces joined back with the separator. */
  function Join(xs: seq<string>): string {
    if |xs| == 0 then "" else if |xs| == 1 then xs[0] else xs[0] + Separator + Join(xs[1..])
  }

  /** Cutting loses nothing: the pieces joined with the separator are the
      input. */
  lemma {:induction false} JoinPieces(s: string)
    ensures Join(Pieces(s)) == s
    decreases |s|
  {
    match FirstMatch(s)
    case None =>
    case Some(i) =>
      var rest := s[i + 2..];
      JoinPieces(rest);
      CutAt(s, i);
      JoinCons(s[..i], Pieces(rest));
  }

  /** Cutting at the leftmost separator. */
  lemma CutAt(s: string, i: nat)
    requires FirstMatch(s) == Some(i)
    ensures Pieces(s) == [s[..i]] + Pieces(s[i + 2..])
    ensures s == s[..i] + Separator + s[i + 2..]
  {
    assert s[i..i + 2] == Separator;
    assert s == s[..i] + s[i..i + 2] + s[i + 2..];
  }

  /** Joining puts the separator after the first piece. */
  lemma JoinCons(a: string, rest: seq<string>)
    requires |rest| >= 1
    ensures Join([a] + rest) == a + Separator + Join(rest)
  {
    assert ([a] + rest)[1..] == rest;
  }

  /** With `a` clean, `a + "__" + rest` is cut first right after `a`. */
  lemma CutAfterClean(a: string, rest: string)
    requires Clean(a)
    ensures FirstMatch(a + Separator + rest) == Some(|a|)
    ensures (a + Separator + rest)[..|a|] == a
    ensures (a + Separator + rest)[|a| + 2..] == rest
  {
    var s := a + Separator + rest;
    assert MatchAt(s, |a|);
    forall j | 0 <= j < |a| ensures !MatchAt(s, j) {
      if j + 1 < |a| {
        assert !MatchAt(a, j);
      }
    }
  }

  /** Cutting a clean head off. */
  lemma PiecesAfterClean(a: string, rest: string)
    requires Clean(a)
    ensures Pieces(a + Separator + rest) == [a] + Pieces(rest)
  {
    CutAfterClean(a, rest);
  }

  /** A string with no separator is one piece. */
  lemma PiecesOfPlain(s: string)
    requires NoSeparator(s)
    ensures Pieces(s) == [s]
  {
  }

  /** Two clean uids joined by the separator split back into exactly those
      two. */
  lemma SplitTwo(a: string, b: string)
    requires Clean(a) && Clean(b) && b != ""
    ensures Split(a + Separator + b) == [a, b]
  {
    PiecesAfterClean(a, b);
    PiecesOfPlain(b);
    CutAfterClean(a, b);
  }

  /** A trailing separator is dropped, so the two uids still come back. */
  lemma SplitTwoTrailing(a: string, b: string)
    requires Clean(a) && Clean(b) && b != ""
    ensures Split(a + Separator + b + Separator) == [a, b]
  {
    var s := a + Separator + b + Separator;
    assert s == a + Separator + (b + Separator + "");
    PiecesAfterClean(a, b + Separator + "");
    PiecesAfterClean(b, "");
    PiecesOfPlain("");
    CutAfterClean(a, b + Separator + "");
    assert Pieces(s) == [a, b, ""];
    assert [a, b, ""][..2] == [a, b];
    assert DropTrailingEmpty([a, b]) == [a, b];
    assert DropTrailingEmpty([a, b, ""]) == [a, b];
  }

  /** An empty input is one empty piece. */
  lemma SplitEmpty()
    ensures Split("") == [""]
  {
  }

  /** Two separators alone split into nothing at all. */
  lemma SplitOnlySeparators()
    ensures Split(Separator + Separator) == []
  {
    var s := Separator + Separator;
    assert s == "" + Separator + ("" + Separator + "");
    PiecesAfterClean("", "" + Separator + "");
    PiecesAfterClean("", "");
    PiecesOfPlain("");
    CutAfterClean("", "" + Separator + "");
    assert Pieces(s) == ["", "", ""];
    assert DropTrailingEmpty([""]) == [];
    assert DropTrailingEmpty(["", ""]) == [];
    assert DropTrailingEmpty(["", "", ""]) == [];
  }

  /** A doubled separator between two uids gives three pieces. */
  lemma SplitDoubledSeparator(a: string, b: string)
    requires Clean(a) && Clean(b) && b != ""
    ensures Split(a + Separator + Separator + b) == [a, "", b]
  {
    var t := a + Separator + Separator + b;
    assert t == a + Separator + ("" + Separator + b);
    PiecesAfterClean(a, "" + Separator + b);
    PiecesAfterClean("", b);
    PiecesOfPlain(b);
    CutAfterClean(a, "" + Separator + b);
    assert Pieces(t) == [a, "", b];
    assert DropTrailingEmpty([a, "", b]) == [a, "", b];
  }
}

=== FILE: page_controller.dfy ===
/** `PageController.chat`: resolves the requesting user and the room's two
    uids and builds the page's attributes. Rendering is not modelled. */
module PageController {
  import opened Wrappers
  import opened Errors
  import opened Users
  import opened JavaSplit

  /** The four model attributes the chat page is rendered with. */
  datatype ChatPage = ChatPage(userUid: string, displayName: string, room: string, roomLabel: string)

  /** `"room: " + A + " ↔ " + B`. */
  function RoomLabel(nameA: string, nameB: string): (r: string)
    ensures |r| == |nameA| + |nameB| + 9
    ensures r[..6] == "room: "
    ensures r[6..6 + |nameA|] == nameA
    ensures r[6 + |nameA|..|r| - |nameB|] == " \U{2194} "
    ensures r[|r| - |nameB|..] == nameB
  {
    "room: " + nameA + " \U{2194} " + nameB
  }

  /** `chat(userUid, room)`: an unknown requester is rejected first; then a
      room that does not split into exactly two parts; then an unknown first
      or second uid, in that order. Nothing requires the requester to be one
      of the room's two users. */
  function Chat(users: Directory, userUid: string, room: string): (r: Result<ChatPage, ChatError>)
    ensures userUid !in users ==> r == Failure(UserNotFound(userUid))
    ensures userUid in users && |Split(room)| != 2 ==> r == Failure(InvalidRoomFormat(room))
    ensures userUid in users && |Split(room)| == 2 && Split(room)[0] !in users ==>
      r == Failure(UserNotFound(Split(room)[0]))
    ensures userUid in users && |Split(room)| == 2 && Split(room)[0] in users && Split(room)[1] !in users ==>
      r == Failure(UserNotFound(Split(room)[1]))
    ensures r.Success? <==>
      userUid in users && |Split(room)| == 2 && Split(room)[0] in users && Split(room)[1] in users
    ensures r.Success? ==>
      && r.value.userUid == userUid && r.value.displayName == users[userUid]
      && r.value.room == room
      && r.value.roomLabel == RoomLabel(users[Split(room)[0]], users[Split(room)[1]])
  {
    match FindDisplayName(users, userUid)
    case None => Failure(UserNotFound(userUid))
    case Some(myName) =>
      var uids := Split(room);
      if |uids| != 2 then Failure(InvalidRoomFormat(room))
      else
        match FindDisplayName(users, uids[0])
        case None => Failure(UserNotFound(uids[0]))
        case Some(nameA) =>
          match FindDisplayName(users, uids[1])
          case None => Failure(UserNotFound(uids[1]))
          case Some(nameB) => Success(ChatPage(userUid, myName, room, RoomLabel(nameA, nameB)))
  }

  /** For a room written as two known, clean uids, any known requester gets
      the page: the label names the two users in the order the room string
      lists them, and the room attribute is the string as given, a trailing
      separator included. */
  lemma ChatOfWellFormedRoom(users: Directory, userUid: string, a: string, b: string)
    requires userUid in users && a in users && b in users
    requires Clean(a) && Clean(b) && b != ""
    ensures Chat(users, userUid, a + Separator + b)
      == Success(ChatPage(userUid, users[userUid], a + Separator + b, RoomLabel(users[a], users[b])))
    ensures Chat(users, userUid, a + Separator + b + Separator)
      == Success(ChatPage(userUid, users[userUid], a + Separator + b + Separator, RoomLabel(users[a], users[b])))
  {
    SplitTwo(a, b);
    SplitTwoTrailing(a, b);
  }
}

=== FILE: seqs.dfy ===
/** Sequence helpers with the semantics of the Java stream operations the
    code uses. */
module Seqs {

  /** `Stream.limit(n)` for `n >= 0`: the first `n` elements, or all of them. */
  function Take<T>(xs: seq<T>, n: nat): (r: seq<T>)
    ensures |r| == if n < |xs| then n else |xs|
    ensures r == xs[..|r|]
  {
    if n < |xs| then xs[..n] else xs
  }

  /** The elements of `xs` in the opposite order. */
  function Reverse<T>(xs: seq<T>): seq<T>
  {
    seq(|xs|, i requires 0 <= i < |xs| => xs[|xs| - 1 - i])
  }

  /** Reversing, keeping the first `k`, and reversing back keeps the last `k`. */
  lemma ReverseTakeReverse<T>(xs: seq<T>, k: nat)
    requires k <= |xs|
    ensures Reverse(Take(Reverse(xs), k)) == xs[|xs| - k..]
  {
    var t := Take(Reverse(xs), k);
    assert |t| == k;
    forall i | 0 <= i < k ensures Reverse(t)[i] == xs[|xs| - k + i] {
      assert Reverse(t)[i] == t[k - 1 - i];
    }
  }

  lemma ReverseCons<T>(x: T, xs: seq<T>)
    ensures Reverse([x] + xs) == Reverse(xs) + [x]
  {
  }

  /** Proof step: moving the head of `ys` to the end of `xs`. */
  lemma MoveHead<T>(xs: seq<T>, ys: seq<T>)
    requires |ys| > 0
    ensures xs + ys == (xs + [ys[0]]) + ys[1..]
  {
    assert ys == [ys[0]] + ys[1..];
  }

  /** Proof step: regrouping a concatenation around one element. */
  lemma Regroup<T>(xs: seq<T>, x: T, ys: seq<T>)
    ensures (xs + [x]) + ys == xs + ([x] + ys)
  {
  }
}

=== FILE: sorting.dfy ===
/** `sorted(Comparator.comparing(ChatMessage::getId))`: a stable sort of
    messages by id, modelled as insertion sort. */
module Sorting {
  import opened Domain
  import opened Seqs
  import Repository

  /** Every message carries an id (the comparator throws on a null id). */
  ghost predicate HaveIds(xs: seq<ChatMessage>) {
    forall i :: 0 <= i < |xs| ==> xs[i].id.Some?
  }

  /** Ids never decrease along `xs`. */
  ghost predicate SortedById(xs: seq<ChatMessage>)
    requires HaveIds(xs)
  {
    forall i, j :: 0 <= i < j < |xs| ==> xs[i].id.value <= xs[j].id.value
  }

  /** Puts `x` before the first element whose id is not smaller. */
  function Insert(x: ChatMessage, ys: seq<ChatMessage>): (r: seq<ChatMessage>)
    requires x.id.Some? && HaveIds(ys) && SortedById(ys)
    ensures HaveIds(r) && SortedById(r)
    ensures multiset(r) == multiset(ys) + multiset{x}
    ensures |r| == |ys| + 1 && (r[0] == x || (|ys| > 0 && r[0] == ys[0]))
  {
    if |ys| == 0 then [x]
    else if x.id.value <= ys[0].id.value then [x] + ys
    else
      var tail := Insert(x, ys[1..]);
      assert ys == [ys[0]] + ys[1..];
      assert ys[0].id.value <= tail[0].id.value;
      PrependSorted(ys[0], tail);
      [ys[0]] + tail
  }

  /** A sorted list stays sorted when an element no larger than its head is
      put in front. */
  lemma PrependSorted(x: ChatMessage, ys: seq<ChatMessage>)
    requires x.id.Some? && HaveIds(ys) && SortedById(ys)
    requires |ys| > 0 ==> x.id.value <= ys[0].id.value
    ensures HaveIds([x] + ys) && SortedById([x] + ys)
  {
    var r := [x] + ys;
    forall i, j | 0 <= i < j < |r| ensures r[i].id.value <= r[j].id.value {
      if i > 0 {
        assert r[i] == ys[i - 1] && r[j] == ys[j - 1];
      } else if j > 1 {
        assert r[j] == ys[j - 1];
        assert ys[0].id.value <= ys[j - 1].id.value;
      }
    }
  }

  /** The stable sort by id: a permutation of `xs` in non-decreasing id order. */
  function SortById(xs: seq<ChatMessage>): (r: seq<ChatMessage>)
    requires HaveIds(xs)
    ensures HaveIds(r) && SortedById(r)
    ensures multiset(r) == multiset(xs)
  {
    if |xs| == 0 then []
    else
      assert xs == [xs[0]] + xs[1..];
      Insert(xs[0], SortById(xs[1..]))
  }

  /** An element larger than everything already sorted goes last. */
  lemma {:induction false} InsertLargest(x: ChatMessage, ys: seq<ChatMessage>)
    requires x.id.Some? && HaveIds(ys) && SortedById(ys)
    requires forall i :: 0 <= i < |ys| ==> ys[i].id.value < x.id.value
    ensures Insert(x, ys) == ys + [x]
  {
    if |ys| > 0 {
      InsertLargest(x, ys[1..]);
      assert [ys[0]] + (ys[1..] + [x]) == ys + [x];
    }
  }

  /** Sorting a list in strictly decreasing id order reverses it, which is
      what the fetch does to the newest-first page. */
  lemma {:induction false} SortDescendingIsReverse(xs: seq<ChatMessage>)
    requires Repository.Descending(xs)
    ensures HaveIds(xs)
    ensures SortById(xs) == Reverse(xs)
  {
    if |xs| > 0 {
      var t := xs[1..];
      DescendingTail(xs);
      SortDescendingIsReverse(t);
      BelowHead(xs);
      InsertLargest(xs[0], Reverse(t));
      assert xs == [xs[0]] + t;
      ReverseCons(xs[0], t);
    }
  }

  /** Dropping the newest row keeps the order. */
  lemma DescendingTail(xs: seq<ChatMessage>)
    requires Repository.Descending(xs) && |xs| > 0
    ensures Repository.Descending(xs[1..])
  {
    var t := xs[1..];
    forall i, j | 0 <= i < j < |t| ensures t[i].id.value > t[j].id.value {
      assert t[i] == xs[i + 1] && t[j] == xs[j + 1];
    }
  }

  /** Every row behind the head of a newest-first list is older than it. */
  lemma BelowHead(xs: seq<ChatMessage>)
    requires Repository.Descending(xs) && |xs| > 0
    ensures HaveIds(Reverse(xs[1..]))
    ensures forall i :: 0 <= i < |xs| - 1 ==> Reverse(xs[1..])[i].id.value < xs[0].id.value
  {
    var rt := Reverse(xs[1..]);
    assert forall i :: 0 <= i < |rt| ==> rt[i] == xs[|xs| - 1 - i];
  }
}

=== FILE: stomp_event_listener.dfy ===
/** `StompEventListener`: on a disconnect, the user the session entered
    with leaves the room the session entered. */
module StompEventListener {
  import opened Wrappers
  import opened ActiveUsers

  /** A STOMP session's attribute map. The code only ever stores strings
      under the two keys it reads back. */
  type SessionAttributes = map<string, string>

  const RoomIdKey := "roomId"
  const UserUidKey := "userUid"

  /** `Map.get`: the value stored under `key`, or null. */
  function Get(attrs: SessionAttributes, key: string): Option<string> {
    if key in attrs then Some(attrs[key]) else None
  }

  /** `handleWebSocketDisconnectListener`: with an attribute map holding
      both a room id and a user uid, that user leaves that room; a missing
      map or a missing key leaves the registry as it was. */
  function HandleDisconnect(p: Registry, attrs: Option<SessionAttributes>): (q: Registry)
    ensures attrs.None? ==> q == p
    ensures attrs.Some? && (RoomIdKey !in attrs.value || UserUidKey !in attrs.value) ==> q == p
    ensures attrs.Some? && RoomIdKey in attrs.value && UserUidKey in attrs.value ==>
      && q.Keys == p.Keys
      && attrs.value[UserUidKey] !in GetUsersInRoom(q, attrs.value[RoomIdKey])
      && GetUsersInRoom(q, attrs.value[RoomIdKey]) == GetUsersInRoom(p, attrs.value[RoomIdKey]) - {attrs.value[UserUidKey]}
      && (forall r :: r in p && r != attrs.value[RoomIdKey] ==> q[r] == p[r])
  {
    match attrs
    case None => p
    case Some(a) =>
      var roomId := Get(a, RoomIdKey);
      var userUid := Get(a, UserUidKey);
      if roomId.Some? && userUid.Some? then UserLeft(p, roomId.value, userUid.value) else p
  }
}

=== FILE: users.dfy ===
/** The user directory as the core uses it: `UserRepository.findByUid`,
    reduced to a map from uid to display name. */
module Users {
  import opened Wrappers

  type Directory = map<string, string>

  /** `findByUid(uid).map(User::getDisplayName)`. */
  function FindDisplayName(users: Directory, uid: string): (r: Option<string>)
    ensures r.Some? <==> uid in users
    ensures r.Some? ==> r.value == users[uid]
  {
    if uid in users then Some(users[uid]) else None
  }
}

=== FILE: wrappers.dfy ===
/** Failure-carrying return types shared by the whole model: `Option` for Java
    references that may be null or `Optional` results, `Result` for operations
    that either return a value or throw. */
module Wrappers {

  datatype Option<T> = None | Some(value: T) {

    /** The value, or `default` when there is none (`Optional.orElse`). */
    function GetOr(default: T): T {
      match this
      case Some(v) => v
      case None => default
    }
  }

  datatype Result<T, E> = Success(value: T) | Failure(error: E)
}
